=== FILE: README.md ===
# geecache in Dafny

A functional model of the geecache distributed cache engine. A lookup in a
named group tries three sources in turn:

1. the group's local LRU cache;
2. the peer that a consistent-hash ring assigns the key to, reached over HTTP;
3. failing that, the group's user-supplied loader.

A single-flight group makes concurrent loads of one key share one fetch.

The project has these modules:

- `ConsistentHash` is the hash ring: virtual nodes, a sorted key list and a hash→peer map.
  - `Get` is a lower-bound search with wrap-around.
  - The hash function is a parameter.
- `Lru` is the eviction cache.
  - It is a recency-ordered sequence, oldest first, weighted by `len(key) + Len(value)`, where `len` counts the bytes of the key's UTF-8 encoding.
  - Its behaviour is pinned down by the assertions of the package's tests.
- `MainCache` is the lazily built, size-bounded wrapper that a group owns (geecache/cache.go).
- `SingleFlight` models the duplicate-call suppressor in two ways:
  - a sequential `Do`;
  - an explicit-step state machine over several callers (begin/join, resolve, delete, wake), with a proved safety invariant.
- `GeeCache` covers groups and their registry, `RegisterPeers`, and the `Get`/`load`/`getFromPeer`/`getLocally` decision tree.
  - The loader, the peer seeker and the peer getters are function values that return results.
- `HttpPool` covers the peer pool:
  - the request-path → status decision of `ServeHTTP`;
  - `Set` rebuilding the ring and getter table;
  - `Seek`;
  - the client getter's URL and error handling.
- Supporting modules:
  - `Wrappers` (`Option`, `Result`, `Error`);
  - `Strings` (Go's `HasPrefix`, `TrimPrefix`, `Split` on one character, `strconv.Itoa`, and the UTF-8 byte length behind `len`);
  - `Sorting` (the sort of the ring keys);
  - `ByteViews` (the immutable byte view).

Every operation is a pure function on immutable values. State that Go mutates in place (the ring, the LRU, a group, the registry, the pool) is threaded through the calls and returned. Go panics become preconditions:
- a nil loader;
- a second `RegisterPeers`;
- a ring lookup of a non-empty key on an empty ring.

The server accepts empty group and key segments (geecache/http.go:51-52); `HttpPool.EmptyGroupSegment` states that such a path reaches the group lookup.

## Model

| member | source | states |
|---|---|---|
| ConsistentHash.New | geecache/consistenthash/consistenthash.go:20-30 | a new ring is empty and valid; a nil hash function is replaced by the default checksum, a given one is kept |
| ConsistentHash.PeerNodes | geecache/consistenthash/consistenthash.go:34-38 | one peer contributes n − i virtual nodes, the k-th hashed over decimal(i + k) followed by the peer name |
| ConsistentHash.NodesLength | geecache/consistenthash/consistenthash.go:33-39 | the nodes generated for a peer list number replicas times the number of peers (with OffsetIsProduct) |
| ConsistentHash.NodeAt | geecache/consistenthash/consistenthash.go:33-39 | node number p·replicas + i is replica i of peer p, hashed over decimal(i) ++ peer — one node per (i, peer) in loop order |
| ConsistentHash.OffsetIsProduct | geecache/consistenthash/consistenthash.go:33-36 | the block of peer p starts at p × replicas |
| ConsistentHash.MapAdd | geecache/consistenthash/consistenthash.go:37 | the map learns exactly the hashes of the added nodes and keeps its old keys |
| ConsistentHash.MapAddLastWins | geecache/consistenthash/consistenthash.go:35-37 | on a hash collision the later node's peer is the one recorded |
| ConsistentHash.MapAddUntouched | geecache/consistenthash/consistenthash.go:37 | a hash no added node produces keeps its old peer |
| ConsistentHash.MapAddSource | geecache/consistenthash/consistenthash.go:37 | every mapped peer is an added peer or the old entry |
| ConsistentHash.Add | geecache/consistenthash/consistenthash.go:32-41 | keys become sorted and are exactly the old keys plus one hash per new virtual node (as multisets); the map's keys grow by exactly the new hashes; a valid ring stays valid |
| ConsistentHash.AddRecordsOwner | geecache/consistenthash/consistenthash.go:35-37 | after Add, each virtual node's hash maps to its peer unless a later node collides with it |
| ConsistentHash.AddKeepsOthers | geecache/consistenthash/consistenthash.go:37 | entries for hashes not produced by the new nodes are unchanged |
| ConsistentHash.AddOwnerSource | geecache/consistenthash/consistenthash.go:37 | every peer in the map after Add is one of the new peers or was there before |
| ConsistentHash.SearchFindsLowerBound | geecache/consistenthash/consistenthash.go:48-50 | the binary search returns the least index whose key is ≥ the target (or the length) |
| ConsistentHash.Search | geecache/consistenthash/consistenthash.go:48-50 | the index found lies within the searched bounds |
| ConsistentHash.LowerBoundUnique | geecache/consistenthash/consistenthash.go:48-50 | that least index is unique |
| ConsistentHash.Get | geecache/consistenthash/consistenthash.go:43-53 | the empty key gives "" without touching the ring; a non-empty key needs a non-empty ring (idx % 0 otherwise) and on a valid ring yields a mapped peer |
| ConsistentHash.GetIsClockwiseSuccessor | geecache/consistenthash/consistenthash.go:47-52 | the answer is the peer of the first key ≥ hash(key), wrapping to keys[0] when none is |
| ConsistentHash.OwnerWasAdded | geecache/consistenthash/consistenthash.go:32-53 | on a ring built from a non-empty peer list with positive replicas, every non-empty key is owned by one of those peers |
| Sorting.Sort | geecache/consistenthash/consistenthash.go:40 | the result is sorted, with the same elements as the input |
| Sorting.Insert | geecache/consistenthash/consistenthash.go:40 | inserting into a sorted sequence keeps it sorted and adds exactly one copy of the element |
| Sorting.SortedUnique | geecache/consistenthash/consistenthash.go:40 | two sorted sequences with the same elements are equal, so the sorted key list is determined by its contents |
| Strings.Itoa | geecache/consistenthash/consistenthash.go:35 | the decimal text of i is a non-empty digit string without a leading zero |
| Strings.AtoiItoa | geecache/consistenthash/consistenthash.go:35 | reading the decimal text back gives the number |
| Strings.ItoaInjective | geecache/consistenthash/consistenthash.go:35 | distinct replica numbers have distinct decimal texts |
| Strings.TrimPrefix | geecache/http.go:50 | when the prefix is present the result is what follows it, otherwise the input |
| Strings.Split | geecache/http.go:51 | the pieces are separator-free, join back to the input, and number one more than the separators |
| Strings.SplitJoin | geecache/http.go:51 | splitting a join of separator-free pieces gives the pieces back |
| Strings.HasPrefix | geecache/http.go:45 | s starts with p iff s is p followed by the rest of s |
| Strings.PrefixOfConcat | geecache/http.go:45-50 | a string extended by anything starts with it, and trimming it gives the extension back |
| Strings.CharLen | geecache/lru/lru_test.go:10-12 | a character takes one to four bytes in UTF-8, one exactly when it is ASCII |
| Strings.Utf8Len | geecache/lru/lru_test.go:10-12 | the byte length of a string is between its character count and four times it |
| Strings.Utf8LenAppend | geecache/lru/lru_test.go:28 | the byte length of a concatenation is the sum of the byte lengths |
| Strings.Utf8LenAscii | geecache/lru/lru_test.go:10-12 | the byte length equals the character count iff every character is ASCII |
| Lru.New | geecache/lru/lru_test.go:15 | a new cache is empty, valid and has the given capacity and callback |
| Lru.SizeAppend | geecache/lru/lru_test.go:10-12 | the weight of a concatenation is the sum of the weights, each entry weighing the UTF-8 byte length of its key plus Len(value) |
| Lru.Len | geecache/lru/lru_test.go:34 | with distinct keys, the length is the number of distinct keys held |
| Lru.DistinctCount | geecache/lru/lru_test.go:34 | entries with distinct keys have as many keys as entries |
| Lru.Get | geecache/lru/lru_test.go:14-23 | a hit iff the key is present, returning its value and moving it to the newest end while the other entries keep their order; a miss leaves the cache as it was; keys, count and weight are kept |
| Lru.MoveSize | geecache/lru/lru_test.go:40-45 | moving an entry to the newest end changes the weight only by the difference of that entry |
| Lru.Insert | geecache/lru/lru_test.go:30-32 | the entry lands at the newest end; a new key appends it and adds its weight |
| Lru.GoneFits | geecache/lru/lru_test.go:30-36 | after eviction the cache is within capacity, unbounded, or down to the one newest entry |
| Lru.GoneMinimal | geecache/lru/lru_test.go:30-36 | the last entry removed had to go: without removing it the cache was over capacity |
| Lru.Gone | geecache/lru/lru_test.go:30-36 | eviction removes no more entries than there are, and never the last one of a non-empty list |
| Lru.EvictSpec | geecache/lru/lru_test.go:30-36 | eviction drops the k oldest entries and keeps the settings; it reports exactly them iff there is a callback; the rest fits; the k-th oldest was dropped only because the bound required it |
| Lru.Add | geecache/lru/lru_test.go:30-36 | the added entry is the newest and is kept; the cache stays valid (distinct keys, within capacity) and learns no other key |
| Lru.EvictKeeps | geecache/lru/lru_test.go:30-36 | eviction keeps a non-empty suffix whose keys are distinct and old, ending at the newest entry, within the bound |
| Lru.AddEvictsOldest | geecache/lru/lru_test.go:25-63 | Add removes a prefix of the recency order (oldest first), and with a callback reports exactly those entries in that order |
| Lru.AddEvictsNoMore | geecache/lru/lru_test.go:48-63 | eviction stops as soon as the bound holds: no entry is evicted that the bound did not require |
| Lru.AddAll | geecache/lru/lru_test.go:53-57 | a series of adds keeps the settings and validity, and reports nothing without a callback |
| Lru.AddThenGet | geecache/lru/lru_test.go:15-18 | a value just added is returned by Get |
| Lru.NeverAddedMisses | geecache/lru/lru_test.go:20-22 | a key that was never added misses, whatever else was added |
| Lru.AddFits | geecache/lru/lru_test.go:28-31 | a new entry that fits is appended and nothing is evicted |
| Lru.AddEvictsOne | geecache/lru/lru_test.go:32-36 | when dropping the oldest entry makes room, exactly that entry is evicted and reported |
| Lru.GetMovesPair | geecache/lru/lru_test.go:40-42 | a hit on the older of two entries makes it the newer |
| Lru.RemoveOldestScenario | geecache/lru/lru_test.go:25-46 | with capacity len(k1+v1+k2+v2), adding a third entry leaves Len 2; then k1 misses and k2, k3 hit, in that order |
| Lru.OnEvictedScenario | geecache/lru/lru_test.go:48-63 | with weights as in the test (8 for k1, 4 for each later entry, capacity 10), the callback sees k1 on the second Add and k2 on the fourth and nothing else, leaving k3 and k4 |
| Lru.TestGet | geecache/lru/lru_test.go:14-23 | with capacity 1000, key1 added with "1234" hits with that value and key2 misses |
| Lru.RemoveOldestWeights | geecache/lru/lru_test.go:26-28 | each test entry weighs eight bytes, and the capacity is sixteen |
| Lru.TestRemoveOldest | geecache/lru/lru_test.go:25-46 | with the test's own strings, Len is 2 after three adds, key1 misses, key2 and key3 hit |
| Lru.OnEvictedWeights | geecache/lru/lru_test.go:53-57 | the test entries weigh 8, 4, 4 and 4 bytes |
| Lru.TestOnEvicted | geecache/lru/lru_test.go:48-63 | with the test's own strings and capacity 10, the callback receives exactly k1 and then k2 over the four adds |
| ByteViews.Clone | geecache/geecache.go:127 | the copy has the same length and bytes |
| MainCache.New | geecache/geecache.go:43 | a group's cache starts with no LRU and no keys |
| MainCache.Add | geecache/cache.go:15-23 | the LRU exists afterwards, its settings are kept, the value is the newest entry, validity is kept |
| MainCache.FirstAddBuildsLru | geecache/cache.go:19-21 | the first Add creates the LRU with capacity cacheBytes and no eviction callback, holding just the new entry |
| MainCache.AddReusesLru | geecache/cache.go:19-22 | a later Add goes to the existing LRU |
| MainCache.AddKeys | geecache/cache.go:22 | after Add the key is present and no other key appears |
| MainCache.Get | geecache/cache.go:25-39 | a hit iff the key is present, returning the value stored under it; the LRU is updated as by Lru.Get; a miss changes nothing; keys and validity are kept |
| MainCache.GetBeforeAdd | geecache/cache.go:29-31 | before any Add, Get misses and does not create the LRU |
| MainCache.AddThenGet | geecache/cache.go:22-38 | a value just added is returned by the next Get |
| SingleFlight.Begin | geecache/singleflight/singleflight.go:20-32 | the map is made if nil; a fresh pending record is registered under the key; other keys keep their records |
| SingleFlight.NewGroup | geecache/geecache.go:45 | a new single-flight group has no map and no records, and is valid |
| SingleFlight.Resolve | geecache/singleflight/singleflight.go:34-35 | the record is filled with fn's outcome; no other record changes |
| SingleFlight.Delete | geecache/singleflight/singleflight.go:37-39 | the key loses its record; other keys keep theirs |
| SingleFlight.Do | geecache/singleflight/singleflight.go:18-42 | with no call in flight for the key, the caller gets exactly fn's result and error, and the in-flight map ends as it began |
| SingleFlight.DoTwice | geecache/singleflight/singleflight.go:37-39 | after a Do completes, a later Do of the same key runs its own fn |
| SingleFlight.Init | geecache/singleflight/singleflight.go:18-22 | callers that have not entered Do satisfy the invariant |
| SingleFlight.Enter | geecache/singleflight/singleflight.go:20-32 | a caller joins the record in flight for its key (map unchanged) or registers a fresh record for it (only its key changes) |
| SingleFlight.Join | geecache/singleflight/singleflight.go:23-27 | a joiner waits on the existing record and changes nothing in the map |
| SingleFlight.Create | geecache/singleflight/singleflight.go:29-32 | a creator registers a new record under its key before running fn |
| SingleFlight.Return | geecache/singleflight/singleflight.go:34-35 | the creator stores its fn's outcome; the invariant holds |
| SingleFlight.Finish | geecache/singleflight/singleflight.go:37-41 | the creator deletes its key's record and returns its own fn's outcome |
| SingleFlight.Wake | geecache/singleflight/singleflight.go:25-26 | a joiner returns exactly the creator's res and err |
| SingleFlight.EnterAfterFinish | geecache/singleflight/singleflight.go:37-39 | once the record is deleted, a new caller of that key creates a fresh record and gets its own fn's outcome |
| SingleFlight.Apply | geecache/singleflight/singleflight.go:18-42 | every enabled step preserves the invariant and the callers' keys and functions |
| SingleFlight.Execute | geecache/singleflight/singleflight.go:18-42 | any run of steps preserves the invariant |
| SingleFlight.InvSafety | geecache/singleflight/singleflight.go:23-41 | under the invariant, every returned caller holds the outcome of a same-key creator, and at most one creator per key is in flight |
| SingleFlight.Safe | geecache/singleflight/singleflight.go:18-42 | in every execution from idle callers, joiners see the creator's exact (res, err) and no key has two records in flight |
| GeeCache.NewGroup | geecache/geecache.go:36-52 | a non-nil loader is required; the group starts with an empty cache and no seeker |
| GeeCache.GetGroup | geecache/geecache.go:54-60 | a group is returned iff one is registered under the name, and it is that registered group |
| GeeCache.NewThenGetGroup | geecache/geecache.go:47-60 | the new group replaces any earlier one of its name; other names are unaffected |
| GeeCache.RegisterPeers | geecache/geecache.go:62-67 | allowed only while no seeker is attached; only the seeker changes |
| GeeCache.RegisterOnce | geecache/geecache.go:63-65 | after one registration a seeker is attached, so a second call is refused |
| GeeCache.RegisterPeersAt | geecache/geecache.go:62-67 | registering peers on a named group changes that registered group, so GetGroup returns it with the seeker; other groups are unchanged |
| GeeCache.GetAt | geecache/geecache.go:69-80 | a Get on a registered group answers as that group's Get, and the registry holds the group's new state afterwards; other groups are unchanged |
| GeeCache.SetupIsShared | geecache/geecache.go:36-67 | after NewGroup and RegisterPeers, GetGroup finds the group with its loader and seeker, and a Get through the registry keeps the seeker |
| GeeCache.OutcomeRoundTrip | geecache/geecache.go:83-101 | the value or error passes through the single-flight closure unchanged |
| GeeCache.PopulateCache | geecache/geecache.go:133-135 | the value is then found in the cache; nothing else in the group changes |
| GeeCache.GetFromPeer | geecache/geecache.go:104-119 | a nil getter is the error "peer is empty"; otherwise the getter's error unchanged or its value for the request (group name, key) |
| GeeCache.GetLocally | geecache/geecache.go:121-131 | a loader error is returned and the cache is unchanged; otherwise a copy of the bytes is returned and cached |
| GeeCache.Fetch | geecache/geecache.go:83-96 | the closure keeps the setup, keeps validity and never changes the cache on an error |
| GeeCache.Load | geecache/geecache.go:82-102 | the single-flight group hands back the closure's exact answer and ends with the same calls in flight |
| GeeCache.Get | geecache/geecache.go:69-80 | an error never changes the cache; the setup and validity are kept |
| GeeCache.GetEmptyKey | geecache/geecache.go:70-72 | the empty key is an error and nothing is consulted or changed |
| GeeCache.GetHit | geecache/geecache.go:74-77 | a hit returns the cached value, consults nothing, and does not depend on the loader or seeker |
| GeeCache.PeerServes | geecache/geecache.go:84-118 | on a miss, a picked peer's value is returned as is, the cache is unchanged, and the loader is not consulted |
| GeeCache.GetMissFetches | geecache/geecache.go:79-102 | on a miss, Get answers what the closure answers |
| GeeCache.FetchFallsBack | geecache/geecache.go:84-95 | with no seeker, a declined seek, or a failed peer, the closure answers as the loader path does |
| GeeCache.FallsBackToLoader | geecache/geecache.go:91-131 | then the loader is consulted once, last: its bytes are returned and cached, or its error is returned with the cache unchanged |
| GeeCache.LoadsOnce | geecache/geecache.go:74-128 | without peers, a second Get of a loaded key is a hit with the same answer and no consultation |
| HttpPool.NewHTTPPool | geecache/http.go:33-38 | the pool has base path "/geecache/", its own address, no ring and no getters |
| HttpPool.Set | geecache/http.go:82-97 | a fresh valid ring with 10 replicas, the default hash and 10 keys per peer; exactly one getter per peer, addressed at peer ++ base path with a 5-second timeout |
| HttpPool.SetGetter | geecache/http.go:89-95 | each listed peer gets the getter for its base URL |
| HttpPool.Owner | geecache/http.go:103 | "" for the empty key and before Set; on a valid ring, a peer the ring maps to |
| HttpPool.Seek | geecache/http.go:99-110 | not ok iff the ring yields "" or the pool's own address; otherwise the getter registered for that peer |
| HttpPool.SeekAfterSet | geecache/http.go:82-110 | after Set with peers, every non-empty key is kept local or sent to its owner, a listed peer, through that peer's non-nil getter |
| HttpPool.ToPick | geecache/http.go:104-109 | not ok stays not ok; a registered getter becomes its client, a missing one stays nil |
| HttpPool.Seeker | geecache/http.go:99-110 | the pool used as a group's seeker keeps a key local iff its owner is unnamed or this process; otherwise it hands over the client of the getter registered for the owner, or nil when there is none |
| HttpPool.SeekerAfterSet | geecache/http.go:82-110 | after Set with peers, the seeker keeps a key local iff its owner is unnamed or this process, else hands over the client of the owner's getter |
| HttpPool.ParsePath | geecache/http.go:45-58 | a parse succeeds only for base path ++ group ++ "/" ++ key with separator-free segments (empty ones allowed) |
| HttpPool.ParseBuiltPath | geecache/http.go:45-58 | every such path parses back to its segments |
| HttpPool.ServeHTTP | geecache/http.go:40-80 | 400 iff the path does not parse; 404 iff the group is unknown; otherwise 500 or 200; 400 and 404 touch no group; 200 carries the encoded value of the group's Get |
| HttpPool.ServeBuiltPath | geecache/http.go:57-79 | a built path for a registered group reaches that group's Get: 200 iff it and the encoding succeed, else 500 |
| HttpPool.EmptyGroupSegment | geecache/http.go:51-64 | a path with an empty group segment passes the shape check and is refused with 404 |
| HttpPool.SlashRefused | geecache/http.go:50-55 | a path whose group or key holds a slash has more than two segments and is refused |
| HttpPool.HttpGet | geecache/http.go:128-153 | the transport error unchanged; a non-200 status as "server returned: " with the status, an unreadable body as "reading response body: " and an undecodable one as "decoding response body: ", each with the underlying message; success iff all steps succeed, with the decoded response |
| HttpPool.RequestURL | geecache/http.go:130 | the URL is the getter's base URL followed by the escaped group, a slash and the escaped key |
| HttpPool.ClientPathParses | geecache/http.go:45-130 | the URL a peer's getter requests, minus the peer address and percent-decoded, is base path ++ g ++ "/" ++ k for g, k the decoded escapes of group and key; the server parses it into exactly (g, k) when neither holds a slash and refuses it otherwise |

## Left out

- lru.go and the ByteView source are not part of this model. The LRU is modelled abstractly, as far as its tests fix it. Two choices go beyond the tests:
  - a capacity ≤ 0 means unbounded;
  - eviction never removes the entry just added.
- Lru.AddAll: collects the evicted entries of its adds in order, but its contract states only that there are none without a callback. Which entries each Add evicts is stated by AddEvictsOldest and EvictSpec, and for the test's run by TestOnEvicted.
- Locks and real concurrency: mutexes, the registry RWMutex, and the WaitGroup blocking in singleflight. Each operation is atomic. Concurrent callers appear only in the `SingleFlight` step machine, and no liveness is claimed.
- GeeCache.Get and GeeCache.Load: require that no lookup of the key is in flight in the group, because a sequential caller cannot observe one. Joining a call in flight is covered by the `SingleFlight` state machine.
- HttpPool.ServeHTTP: requires that no group in the registry has a lookup in flight, for the same reason.
- Strings: keys and names are Unicode strings; Go strings holding invalid UTF-8 are not represented, and for them `len` counts raw bytes.
- Logging: the calls to `log` do not affect results.
- Protobuf: marshal and unmarshal are function parameters.
- HttpPool.ClientPathParses: `url.QueryEscape` and the server's percent-decoding of the request path are function parameters. The lemma assumes only that decoding passes the base path and the separating slash through. It does not prove Go's facts about the pair: decoding a query escape gives back the original except that a space comes back as '+'. So a key with a space reaches the server with a '+' in its place, and a group or key with a '/' is refused with 400 (`SlashRefused`).
- The IEEE CRC-32 checksum is a function parameter.
- The HTTP client, server and transport: the transport is a function parameter; the 5-second client timeout is kept only as a number.
- Value semantics: Go's `NewGroup` returns the very `*Group` it registers, so later changes through that pointer are seen by every lookup of the name. The model threads the registry instead: `RegisterPeersAt` and `GetAt` write the group's new state back, and a group value taken out of the registry is a snapshot.
- GeeCache.Pick: Go's typed-nil interface subtlety is not modelled. In Go, `Seek` returning a nil `*httpGetter` yields a non-nil interface, so `getFromPeer` would not see nil. After `Set` this case cannot arise (`SeekAfterSet`).
- gee/, geeorm/ and geecache/example/main.go: they are outside the cache engine.

=== FILE: byteview.dfy ===
/** The immutable byte view values the cache stores. Its source file is not
    part of this model: a view is its bytes, its `Len` is their number, and
    handing bytes in or out copies them, which a value model makes the
    identity on contents. */
module ByteViews {
  type byte = bv8

  datatype ByteView = ByteView(b: seq<byte>)

  /** `Len`: the weight the LRU charges for a view. */
  function Len(v: ByteView): nat {
    |v.b|
  }

  /** `cloneBytes` / `ByteSlice`: a copy with the same contents. */
  function Clone(b: seq<byte>): (r: seq<byte>)
    ensures |r| == |b| && forall i :: 0 <= i < |b| ==> r[i] == b[i]
  {
    b[..]
  }
}

=== FILE: cache.dfy ===
/** The mutex-guarded wrapper around the LRU (geecache/cache.go). The LRU is
    built lazily on the first `Add`, with capacity `cacheBytes` and no
    eviction callback; until then every `Get` misses. */
module MainCache {
  import opened Wrappers
  import opened ByteViews
  import Lru

  datatype Cache = Cache(cacheBytes: int, lru: Option<Lru.Cache<ByteView>>)

  /** The result of `Get`: the cache with its new recency order and the
      value if there was a hit. */
  datatype Lookup = Lookup(cache: Cache, value: Option<ByteView>)

  /** Once built, the LRU has the wrapper's capacity, weighs views by `Len`,
      has no callback, and is itself valid. */
  ghost predicate Valid(c: Cache) {
    c.lru.Some? ==>
      && Lru.Valid(c.lru.value)
      && c.lru.value.maxBytes == c.cacheBytes
      && c.lru.value.valueLen == Len
      && !c.lru.value.onEvicted
  }

  /** The keys the cache currently holds. */
  function Keys(c: Cache): set<string> {
    if c.lru.None? then {} else Lru.KeySet(c.lru.value.entries)
  }

  /** `&cache{cacheBytes: n}` as `NewGroup` builds it: no LRU yet. */
  function New(cacheBytes: int): (c: Cache)
    ensures Valid(c) && Keys(c) == {} && c.lru.None? && c.cacheBytes == cacheBytes
  {
    Cache(cacheBytes, None)
  }

  /** `Add`: builds the LRU when there is none, then adds to it; the
      entry ends up at the most recently used end and the LRU keeps its
      settings. */
  function Add(c: Cache, key: string, val: ByteView): (r: Cache)
    ensures r.cacheBytes == c.cacheBytes && r.lru.Some?
    ensures c.lru.Some? ==>
      r.lru.value.maxBytes == c.lru.value.maxBytes && r.lru.value.onEvicted == c.lru.value.onEvicted
    ensures var es := r.lru.value.entries; |es| > 0 && es[|es| - 1] == Lru.Entry(key, val)
    ensures Valid(c) ==> Valid(r)
  {
    var lru := if c.lru.None? then Lru.New(c.cacheBytes, Len, false) else c.lru.value;
    Cache(c.cacheBytes, Some(Lru.Add(lru, key, val).cache))
  }

  /** The first `Add` builds an LRU with capacity `cacheBytes`, the `Len`
      weight and no callback, holding just the new entry. */
  lemma FirstAddBuildsLru(c: Cache, key: string, val: ByteView)
    requires c.lru.None?
    ensures Add(c, key, val).lru == Some(Lru.Cache(c.cacheBytes, Len, false, [Lru.Entry(key, val)]))
  {
    var lru := Lru.New(c.cacheBytes, Len, false);
    Lru.FreshAdd(lru, key, val);
  }

  /** `Add` teaches the cache `key` and no other key. */
  lemma AddKeys(c: Cache, key: string, val: ByteView)
    ensures key in Keys(Add(c, key, val)) && Keys(Add(c, key, val)) <= Keys(c) + {key}
  {
    var lru := if c.lru.None? then Lru.New(c.cacheBytes, Len, false) else c.lru.value;
    var es := Lru.Add(lru, key, val).cache.entries;
    assert Add(c, key, val).lru.value.entries == es;
    assert es[|es| - 1].key == key;
    assert Lru.KeySet(lru.entries) == Keys(c) by {
      if c.lru.None? {
        assert lru.entries == [];
      }
    }
  }

  /** `Get`: a miss when no LRU exists yet (nothing is built); otherwise the
      LRU's answer. */
  function Get(c: Cache, key: string): (r: Lookup)
    ensures r.value.Some? <==> key in Keys(c)
    ensures r.value.None? ==> r.cache == c
    ensures r.cache.cacheBytes == c.cacheBytes && r.cache.lru.Some? == c.lru.Some?
    ensures Keys(r.cache) == Keys(c)
    ensures Valid(c) ==> Valid(r.cache)
    ensures c.lru.Some? && Lru.DistinctKeys(c.lru.value.entries) ==>
      forall i :: 0 <= i < |c.lru.value.entries| && c.lru.value.entries[i].key == key ==>
        r.value == Some(c.lru.value.entries[i].value)
    ensures c.lru.Some? ==> r.cache.lru == Some(Lru.Get(c.lru.value, key).cache)
  {
    match c.lru
    case None => Lookup(c, None)
    case Some(lru) =>
      var found := Lru.Get(lru, key);
      if found.value.None? then Lookup(c, None)
      else Lookup(c.(lru := Some(found.cache)), found.value)
  }

  /** A `Get` before any `Add` misses and does not build the LRU. */
  lemma GetBeforeAdd(cacheBytes: int, key: string)
    ensures Get(New(cacheBytes), key) == Lookup(New(cacheBytes), None)
  {
  }

  /** A value just added is what the next `Get` of its key returns. */
  lemma AddThenGet(c: Cache, key: string, val: ByteView)
    requires Valid(c)
    ensures Get(Add(c, key, val), key).value == Some(val)
  {
    var lru := if c.lru.None? then Lru.New(c.cacheBytes, Len, false) else c.lru.value;
    Lru.AddThenGet(lru, key, val);
  }

  /** Later adds go to the LRU the first add built, which keeps the
      capacity it was built with. */
  lemma AddReusesLru(c: Cache, k1: string, v1: ByteView, k2: string, v2: ByteView)
    ensures var r1 := Add(c, k1, v1);
      var r2 := Add(r1, k2, v2);
      && r2.lru.value == Lru.Add(r1.lru.value, k2, v2).cache
      && (c.lru.None? ==> r2.lru.value.maxBytes == c.cacheBytes && !r2.lru.value.onEvicted)
  {
  }
}

=== FILE: consistenthash.dfy ===
/** The consistent-hash ring (geecache/consistenthash/consistenthash.go):
    every peer owns `replicas` virtual nodes placed at the hash of
    `decimal(i) ++ peer`, and a key belongs to the first virtual node at or
    after the key's own hash, wrapping round to the smallest one. */
module ConsistentHash {
  import opened Wrappers
  import opened Strings
  import opened Sorting

  /** A 32-bit checksum, Go's `uint32`, widened to `int` as the ring does. */
  type Hash32 = x: int | 0 <= x < 0x1_0000_0000

  /** The hash function over the bytes of a string. */
  type HashFn = string -> Hash32

  /** `keys` are the virtual-node hashes, `hashMap` sends a virtual-node hash
      to the peer that owns it. */
  datatype Ring = Ring(hash: HashFn, replicas: int, hashMap: map<int, string>, keys: seq<int>)

  /** A virtual node: its position on the ring and the peer it stands for. */
  datatype VNode = VNode(hash: int, peer: string)

  /** The keys are sorted and name exactly the hashes the map knows. */
  predicate Valid(r: Ring) {
    && Sorted(r.keys)
    && (forall i :: 0 <= i < |r.keys| ==> r.keys[i] in r.hashMap)
    && (forall h :: h in r.hashMap ==> h in r.keys)
  }

  /** `New`: an empty ring. A missing hash function is replaced by the
      default checksum, which the caller supplies as `crc32`. */
  function New(replicas: int, hashFunc: Option<HashFn>, crc32: HashFn): (r: Ring)
    ensures Valid(r)
    ensures r.keys == [] && r.hashMap == map[] && r.replicas == replicas
    ensures hashFunc.Some? ==> r.hash == hashFunc.value
    ensures hashFunc.None? ==> r.hash == crc32
  {
    var h := if hashFunc.Some? then hashFunc.value else crc32;
    Ring(h, replicas, map[], [])
  }

  /** Go's `for i := range n` runs zero times when `n` is negative. */
  function Replicas(n: int): nat {
    if n < 0 then 0 else n
  }

  /** The position of the `i`-th virtual node of `peer`. */
  function NodeHash(hash: HashFn, i: nat, peer: string): Hash32 {
    hash(Itoa(i) + peer)
  }

  /** Virtual nodes `i`, `i + 1`, ..., `n - 1` of one peer, in that order. */
  function PeerNodes(hash: HashFn, peer: string, i: nat, n: nat): (nodes: seq<VNode>)
    requires i <= n
    ensures |nodes| == n - i
    ensures forall k :: 0 <= k < |nodes| ==> nodes[k] == VNode(NodeHash(hash, i + k, peer), peer)
    decreases n - i
  {
    if i == n then [] else [VNode(NodeHash(hash, i, peer), peer)] + PeerNodes(hash, peer, i + 1, n)
  }

  /** The virtual nodes `Add` creates, in the order its two loops visit them. */
  function Nodes(hash: HashFn, n: nat, peers: seq<string>): (nodes: seq<VNode>)
    ensures forall k :: 0 <= k < |nodes| ==> nodes[k].peer in peers
  {
    if |peers| == 0 then []
    else
      var rest := Nodes(hash, n, peers[1..]);
      assert forall k :: 0 <= k < |rest| ==> rest[k].peer in peers by {
        forall k | 0 <= k < |rest| ensures rest[k].peer in peers {
          assert rest[k].peer in peers[1..];
        }
      }
      PeerNodes(hash, peers[0], 0, n) + rest
  }

  /** `Offset(p, n)` is `p * n`, spelled as repeated addition so that the
      solver does not need non-linear arithmetic. */
  function Offset(p: nat, n: nat): nat {
    if p == 0 then 0 else Offset(p - 1, n) + n
  }

  lemma {:induction false} OffsetIsProduct(p: nat, n: nat)
    ensures Offset(p, n) == p * n
  {
    if p > 0 {
      OffsetIsProduct(p - 1, n);
      assert p * n == (p - 1) * n + n;
    }
  }


  /** `Add` creates `n * |peers|` virtual nodes. */
  lemma {:induction false} NodesLength(hash: HashFn, n: nat, peers: seq<string>)
    ensures |Nodes(hash, n, peers)| == Offset(|peers|, n)
    decreases |peers|
  {
    if |peers| > 0 {
      NodesLength(hash, n, peers[1..]);
    }
  }

  /** There is one virtual node per (peer, replica index), peer-major:
      replica `i` of `peers[p]` sits at position `Offset(p, n) + i`, that is
      `p * n + i`. */
  lemma {:induction false} NodeAt(hash: HashFn, n: nat, peers: seq<string>, p: nat, i: nat)
    requires p < |peers| && i < n
    ensures Offset(p, n) + i < |Nodes(hash, n, peers)|
    ensures Nodes(hash, n, peers)[Offset(p, n) + i] == VNode(NodeHash(hash, i, peers[p]), peers[p])
    decreases p
  {
    var rest := peers[1..];
    var head := PeerNodes(hash, peers[0], 0, n);
    var tail := Nodes(hash, n, rest);
    assert Nodes(hash, n, peers) == head + tail;
    if p == 0 {
      assert head[i] == VNode(NodeHash(hash, i, peers[0]), peers[0]);
    } else {
      NodeAt(hash, n, rest, p - 1, i);
      assert peers[p] == rest[p - 1];
      assert Offset(p, n) + i == |head| + (Offset(p - 1, n) + i);
    }
  }

  /** The hashes of a run of virtual nodes. */
  function Hashes(nodes: seq<VNode>): (hs: seq<int>)
    ensures |hs| == |nodes|
    ensures forall k :: 0 <= k < |nodes| ==> hs[k] == nodes[k].hash
  {
    seq(|nodes|, k requires 0 <= k < |nodes| => nodes[k].hash)
  }

  /** The hashes of the given nodes, as a set. */
  function HashSet(nodes: seq<VNode>): (hs: set<int>)
    ensures forall k :: 0 <= k < |nodes| ==> nodes[k].hash in hs
    ensures forall h :: h in hs ==> exists k :: 0 <= k < |nodes| && nodes[k].hash == h
  {
    if |nodes| == 0 then {}
    else
      var rest := HashSet(nodes[1..]);
      assert forall h :: h in rest ==> exists k :: 0 <= k < |nodes| && nodes[k].hash == h by {
        forall h | h in rest ensures exists k :: 0 <= k < |nodes| && nodes[k].hash == h {
          var k :| 0 <= k < |nodes[1..]| && nodes[1..][k].hash == h;
          assert nodes[k + 1].hash == h;
        }
      }
      {nodes[0].hash} + rest
  }

  /** The map after assigning the nodes' peers one after another, as the
      inner loop of `Add` does: every node's hash becomes a key. */
  function MapAdd(m: map<int, string>, nodes: seq<VNode>): (r: map<int, string>)
    ensures r.Keys == m.Keys + HashSet(nodes)
    decreases |nodes|
  {
    if |nodes| == 0 then m
    else MapAdd(m[nodes[0].hash := nodes[0].peer], nodes[1..])
  }

  /** Entries the nodes do not touch keep their peer. */
  lemma {:induction false} MapAddUntouched(m: map<int, string>, nodes: seq<VNode>, h: int)
    requires h in m && h !in HashSet(nodes)
    ensures MapAdd(m, nodes)[h] == m[h]
    decreases |nodes|
  {
    if |nodes| > 0 {
      assert nodes[0].hash in HashSet(nodes);
      MapAddUntouched(m[nodes[0].hash := nodes[0].peer], nodes[1..], h);
    }
  }

  /** On a hash collision the later node wins: a node that no later node
      collides with keeps its peer. */
  lemma {:induction false} MapAddLastWins(m: map<int, string>, nodes: seq<VNode>, k: nat)
    requires k < |nodes|
    requires forall j :: k < j < |nodes| ==> nodes[j].hash != nodes[k].hash
    ensures MapAdd(m, nodes)[nodes[k].hash] == nodes[k].peer
    decreases |nodes|
  {
    var m' := m[nodes[0].hash := nodes[0].peer];
    if k == 0 {
      assert nodes[0].hash !in HashSet(nodes[1..]) by {
        forall j | 0 <= j < |nodes[1..]|
          ensures nodes[1..][j].hash != nodes[0].hash
        {
          assert nodes[1..][j] == nodes[j + 1];
        }
      }
      MapAddUntouched(m', nodes[1..], nodes[0].hash);
    } else {
      MapAddLastWins(m', nodes[1..], k - 1);
    }
  }

  /** Every peer in the map came with a node or was already there under the
      same hash. */
  lemma {:induction false} MapAddSource(m: map<int, string>, nodes: seq<VNode>, peers: set<string>, h: int)
    requires forall k :: 0 <= k < |nodes| ==> nodes[k].peer in peers
    requires h in MapAdd(m, nodes)
    ensures MapAdd(m, nodes)[h] in peers || (h in m && MapAdd(m, nodes)[h] == m[h])
    decreases |nodes|
  {
    if |nodes| > 0 {
      var m' := m[nodes[0].hash := nodes[0].peer];
      assert forall k :: 0 <= k < |nodes[1..]| ==> nodes[1..][k].peer in peers by {
        forall k | 0 <= k < |nodes[1..]| ensures nodes[1..][k].peer in peers {
          assert nodes[1..][k] == nodes[k + 1];
        }
      }
      MapAddSource(m', nodes[1..], peers, h);
    }
  }

  /** The virtual nodes `Add(peers)` creates on this ring. */
  function AddedNodes(ring: Ring, peers: seq<string>): seq<VNode> {
    Nodes(ring.hash, Replicas(ring.replicas), peers)
  }

  /** `Add`: appends the hashes of the new virtual nodes to the keys, records
      each node's peer in the map, and sorts the keys once. The keys become a
      sorted permutation of the old keys plus the new hashes, the map learns
      exactly the new hashes, and a valid ring stays valid. */
  function Add(ring: Ring, peers: seq<string>): (r: Ring)
    ensures r.hash == ring.hash && r.replicas == ring.replicas
    ensures Sorted(r.keys)
    ensures multiset(r.keys) == multiset(ring.keys) + multiset(Hashes(AddedNodes(ring, peers)))
    ensures r.hashMap.Keys == ring.hashMap.Keys + HashSet(AddedNodes(ring, peers))
    ensures Valid(ring) ==> Valid(r)
  {
    var nodes := AddedNodes(ring, peers);
    var r := Ring(ring.hash, ring.replicas, MapAdd(ring.hashMap, nodes), Sort(ring.keys + Hashes(nodes)));
    assert multiset(ring.keys + Hashes(nodes)) == multiset(ring.keys) + multiset(Hashes(nodes));
    if Valid(ring) then
      assert forall i :: 0 <= i < |r.keys| ==> r.keys[i] in r.hashMap by {
        forall i | 0 <= i < |r.keys| ensures r.keys[i] in r.hashMap {
          var h := r.keys[i];
          assert h in multiset(r.keys);
          if h in multiset(ring.keys) {
            assert h in ring.keys;
          } else {
            assert h in Hashes(nodes);
            var k :| 0 <= k < |nodes| && Hashes(nodes)[k] == h;
            assert nodes[k].hash in HashSet(nodes);
          }
        }
      }
      assert forall h :: h in r.hashMap ==> h in r.keys by {
        forall h | h in r.hashMap ensures h in r.keys {
          if h in ring.hashMap {
            assert h in ring.keys;
            assert h in multiset(ring.keys);
          } else {
            var k :| 0 <= k < |nodes| && nodes[k].hash == h;
            assert Hashes(nodes)[k] == h;
            assert h in multiset(Hashes(nodes));
          }
          assert h in multiset(r.keys);
        }
      }
      r
    else
      r
  }

  /** After `Add`, replica `i` of `peers[p]` is owned by `peers[p]` unless a
      virtual node added after it landed on the same hash (a later peer
      overwrites an earlier one). */
  lemma AddRecordsOwner(ring: Ring, peers: seq<string>, p: nat, i: nat)
    requires p < |peers| && i < Replicas(ring.replicas)
    requires var nodes := AddedNodes(ring, peers);
      forall j :: Offset(p, Replicas(ring.replicas)) + i < j < |nodes| ==> nodes[j].hash != NodeHash(ring.hash, i, peers[p])
    ensures var h := NodeHash(ring.hash, i, peers[p]);
      h in Add(ring, peers).hashMap && Add(ring, peers).hashMap[h] == peers[p]
  {
    var n := Replicas(ring.replicas);
    var nodes := AddedNodes(ring, peers);
    NodeAt(ring.hash, n, peers, p, i);
    var k := Offset(p, n) + i;
    assert nodes[k] == VNode(NodeHash(ring.hash, i, peers[p]), peers[p]);
    assert nodes[k].hash in HashSet(nodes);
    MapAddLastWins(ring.hashMap, nodes, k);
    assert Add(ring, peers).hashMap == MapAdd(ring.hashMap, nodes);
  }

  /** `Add` leaves the owner of every hash it does not create untouched. */
  lemma AddKeepsOthers(ring: Ring, peers: seq<string>, h: int)
    requires h in ring.hashMap && h !in HashSet(AddedNodes(ring, peers))
    ensures Add(ring, peers).hashMap[h] == ring.hashMap[h]
  {
    MapAddUntouched(ring.hashMap, AddedNodes(ring, peers), h);
  }

  /** Every owner after `Add` is one of the added peers or the hash's owner
      before. */
  lemma AddOwnerSource(ring: Ring, peers: seq<string>, h: int)
    requires h in Add(ring, peers).hashMap
    ensures Add(ring, peers).hashMap[h] in peers
      || (h in ring.hashMap && Add(ring, peers).hashMap[h] == ring.hashMap[h])
  {
    var nodes := AddedNodes(ring, peers);
    MapAddSource(ring.hashMap, nodes, (set q | q in peers), h);
  }

  /** `i` is the least index whose key is at least `target` (`|keys|` when
      there is none). */
  predicate IsLowerBound(keys: seq<int>, target: int, i: int) {
    && 0 <= i <= |keys|
    && (forall j :: 0 <= j < i ==> keys[j] < target)
    && (forall j :: i <= j < |keys| ==> keys[j] >= target)
  }

  /** Go's `sort.Search(n, func(i) bool { return keys[i] >= target })`
      restricted to `[lo, hi)`, halving the interval exactly as the library
      does. */
  function Search(keys: seq<int>, target: int, lo: nat, hi: nat): (i: nat)
    requires lo <= hi <= |keys|
    ensures lo <= i <= hi
    decreases hi - lo
  {
    if lo < hi then
      var mid := (lo + hi) / 2;
      if !(keys[mid] >= target) then Search(keys, target, mid + 1, hi)
      else Search(keys, target, lo, mid)
    else lo
  }

  /** On sorted keys the binary search finds the lower bound. */
  lemma {:induction false} SearchFindsLowerBound(keys: seq<int>, target: int, lo: nat, hi: nat)
    requires Sorted(keys) && lo <= hi <= |keys|
    requires forall j :: 0 <= j < lo ==> keys[j] < target
    requires forall j :: hi <= j < |keys| ==> keys[j] >= target
    ensures IsLowerBound(keys, target, Search(keys, target, lo, hi))
    decreases hi - lo
  {
    if lo < hi {
      var mid := (lo + hi) / 2;
      if !(keys[mid] >= target) {
        SearchFindsLowerBound(keys, target, mid + 1, hi);
      } else {
        SearchFindsLowerBound(keys, target, lo, mid);
      }
    }
  }

  /** `Get`: the owner of `key`. The empty key has no owner and does not
      look at the ring; any other key needs at least one virtual node, since
      the code computes `idx % len(keys)`. On a valid ring the answer is a
      peer the map knows. */
  function Get(ring: Ring, key: string): (peer: string)
    requires |key| == 0 || |ring.keys| > 0
    ensures |key| == 0 ==> peer == ""
    ensures |key| > 0 && Valid(ring) ==> peer in ring.hashMap.Values
  {
    if |key| == 0 then ""
    else
      var idx := Search(ring.keys, ring.hash(key), 0, |ring.keys|);
      var h := ring.keys[idx % |ring.keys|];
      if h in ring.hashMap then ring.hashMap[h] else ""
  }

  /** The owner of a key is the peer of the first virtual node whose hash is
      at least the key's hash, or of the smallest virtual node when every
      node lies below the key's hash. */
  lemma GetIsClockwiseSuccessor(ring: Ring, key: string)
    requires Valid(ring) && |key| > 0 && |ring.keys| > 0
    ensures forall i :: IsLowerBound(ring.keys, ring.hash(key), i) && i < |ring.keys| ==>
      Get(ring, key) == ring.hashMap[ring.keys[i]]
    ensures IsLowerBound(ring.keys, ring.hash(key), |ring.keys|) ==>
      Get(ring, key) == ring.hashMap[ring.keys[0]]
  {
    var n := |ring.keys|;
    var target := ring.hash(key);
    var idx := Search(ring.keys, target, 0, n);
    SearchFindsLowerBound(ring.keys, target, 0, n);
    forall i | IsLowerBound(ring.keys, target, i) && i < n
      ensures Get(ring, key) == ring.hashMap[ring.keys[i]]
    {
      LowerBoundUnique(ring.keys, target, i, idx);
      ModBelow(idx, n);
    }
    if IsLowerBound(ring.keys, target, n) {
      LowerBoundUnique(ring.keys, target, n, idx);
      ModSelf(n);
    }
  }

  lemma LowerBoundUnique(keys: seq<int>, target: int, i: int, j: int)
    requires IsLowerBound(keys, target, i) && IsLowerBound(keys, target, j)
    ensures i == j
  {
    if i < |keys| {
      assert keys[i] >= target;
    }
    if j < |keys| {
      assert keys[j] >= target;
    }
  }

  lemma ModBelow(a: nat, n: nat)
    requires a < n
    ensures a % n == a
  {
  }

  lemma ModSelf(n: nat)
    requires n > 0
    ensures n % n == 0
  {
  }

  /** A ring built by `New` and `Add` sends every non-empty key to one of the
      peers passed to `Add`. */
  lemma OwnerWasAdded(replicas: int, hashFunc: Option<HashFn>, crc32: HashFn, peers: seq<string>, key: string)
    requires replicas > 0 && |peers| > 0 && |key| > 0
    ensures |Add(New(replicas, hashFunc, crc32), peers).keys| > 0
    ensures Get(Add(New(replicas, hashFunc, crc32), peers), key) in peers
  {
    var ring := New(replicas, hashFunc, crc32);
    var r := Add(ring, peers);
    NodesLength(ring.hash, replicas, peers);
    assert Offset(|peers|, replicas) > 0 by {
      OffsetIsProduct(|peers|, replicas);
    }
    var owner := Get(r, key);
    var h :| h in r.hashMap && r.hashMap[h] == owner;
    AddOwnerSource(ring, peers, h);
  }
}

=== FILE: geecache.dfy ===
/** Cache groups and the lookup path (geecache/geecache.go): a named group
    answers `Get` from its local cache, else through its single-flight
    group from the peer the seeker picks, else from its loader, caching
    only what the loader produced. The loader, the seeker and the peer
    getters (the interfaces of geecache/peers.go) are function values
    returning results; the global registry is a map threaded through the
    operations that use it. */
module GeeCache {
  import opened Wrappers
  import opened ByteViews
  import MainCache
  import SingleFlight

  /** The protobuf request and response messages. */
  datatype Request = Request(group: string, key: string)
  datatype Response = Response(value: seq<byte>)

  /** `Loader.Load`. */
  type Loader = string -> Result<seq<byte>, Error>

  /** `PeerGetter.Get`. */
  datatype PeerGetter = PeerGetter(get: Request -> Result<Response, Error>)

  /** The answer of `PeerSeeker.Seek`: not ok, or ok with a getter that may
      be nil. */
  datatype Pick = NoPeer | Picked(getter: Option<PeerGetter>)

  type PeerSeeker = string -> Pick

  datatype Group = Group(
    name: string,
    cache: MainCache.Cache,
    loader: Loader,
    peers: Option<PeerSeeker>,
    flight: SingleFlight.Group<ByteView>)

  /** The name-to-group map `groups`. */
  type Registry = map<string, Group>

  /** What a lookup consulted: the seeker, a peer's getter, the loader. */
  datatype Touch = Sought(key: string) | Fetched(req: Request) | Loaded(key: string)

  /** The result of a lookup: the group's new state, the answer and what was
      consulted, in order. */
  datatype Reply = Reply(group: Group, value: Result<ByteView, Error>, trace: seq<Touch>)

  /** The cache wrapper is consistent and no lookup is in flight. */
  ghost predicate Valid(g: Group) {
    MainCache.Valid(g.cache) && SingleFlight.Calls(g.flight) == map[]
  }

  /** The fields a lookup never changes. */
  ghost predicate SameSetup(a: Group, b: Group) {
    a.name == b.name && a.loader == b.loader && a.peers == b.peers && a.cache.cacheBytes == b.cache.cacheBytes
  }

  /** `NewGroup`: a nil loader panics, so one is required. The group starts
      with an unbuilt cache of `cacheBytes`, no seeker and an empty
      single-flight group, and is registered under `name`. */
  function NewGroup(reg: Registry, name: string, cacheBytes: int, loader: Option<Loader>): (r: (Registry, Group))
    requires loader.Some?
    ensures r.1.name == name && r.1.loader == loader.value && r.1.peers.None?
    ensures r.1.cache == MainCache.New(cacheBytes) && Valid(r.1)
  {
    var g := Group(name, MainCache.New(cacheBytes), loader.value, None, SingleFlight.NewGroup());
    (reg[name := g], g)
  }

  /** `GetGroup`: the group registered under `name`, or nil. */
  function GetGroup(reg: Registry, name: string): (r: Option<Group>)
    ensures r.Some? <==> name in reg
    ensures r.Some? ==> r.value == reg[name]
  {
    if name in reg then Some(reg[name]) else None
  }

  /** A new group is what `GetGroup` returns for its name from then on, in
      place of any earlier group of that name; other names are unaffected. */
  lemma NewThenGetGroup(reg: Registry, name: string, cacheBytes: int, loader: Option<Loader>, other: string)
    requires loader.Some?
    ensures var (reg1, g) := NewGroup(reg, name, cacheBytes, loader);
      && GetGroup(reg1, name) == Some(g)
      && (other != name ==> GetGroup(reg1, other) == GetGroup(reg, other))
  {
  }

  /** `RegisterPeers`: allowed only while no seeker is attached (a second
      call panics). */
  function RegisterPeers(g: Group, peers: Option<PeerSeeker>): (r: Group)
    requires g.peers.None?
    ensures r.peers == peers
    ensures r.name == g.name && r.cache == g.cache && r.loader == g.loader && r.flight == g.flight
  {
    g.(peers := peers)
  }

  /** Once a seeker is attached, a further `RegisterPeers` is refused. */
  lemma RegisterOnce(g: Group, peers: PeerSeeker)
    requires g.peers.None?
    ensures RegisterPeers(g, Some(peers)).peers.Some?
    ensures RegisterPeers(g, Some(peers)).peers.value == peers
  {
  }

  /** `RegisterPeers` on the group `NewGroup` handed out. Go's `*Group` is
      the very group the registry holds, so the seeker is attached to the
      registered group and every later `GetGroup` of the name sees it. */
  function RegisterPeersAt(reg: Registry, name: string, peers: Option<PeerSeeker>): (r: Registry)
    requires name in reg && reg[name].peers.None?
    ensures r.Keys == reg.Keys
    ensures GetGroup(r, name) == Some(RegisterPeers(reg[name], peers))
    ensures forall n :: n in reg && n != name ==> r[n] == reg[n]
  {
    reg[name := RegisterPeers(reg[name], peers)]
  }

  /** `Group.Get` on a registered group: the answer is that group's, and the
      group's new state (its cache, its single-flight group) is what the
      registry holds afterwards, as with Go's shared `*Group`. */
  function GetAt(reg: Registry, name: string, key: string): (r: (Registry, Reply))
    requires name in reg && key !in SingleFlight.Calls(reg[name].flight)
    ensures r.1 == Get(reg[name], key)
    ensures r.0.Keys == reg.Keys && GetGroup(r.0, name) == Some(r.1.group)
    ensures forall n :: n in reg && n != name ==> r.0[n] == reg[n]
  {
    var reply := Get(reg[name], key);
    (reg[name := reply.group], reply)
  }

  /** The set-up of a process: a group made by `NewGroup` and given a seeker
      by `RegisterPeers` is found by `GetGroup` with that seeker and its
      loader; lookups through the registry keep both. */
  lemma SetupIsShared(reg: Registry, name: string, cacheBytes: int, loader: Loader, peers: PeerSeeker, key: string)
    requires key != ""
    ensures var reg1 := NewGroup(reg, name, cacheBytes, Some(loader)).0;
      var reg2 := RegisterPeersAt(reg1, name, Some(peers));
      && GetGroup(reg2, name).Some?
      && GetGroup(reg2, name).value.peers == Some(peers)
      && GetGroup(reg2, name).value.loader == loader
      && var reg3 := GetAt(reg2, name, key).0;
         GetGroup(reg3, name).Some? && GetGroup(reg3, name).value.peers == Some(peers)
  {
    var reg1 := NewGroup(reg, name, cacheBytes, Some(loader)).0;
    var reg2 := RegisterPeersAt(reg1, name, Some(peers));
    assert SingleFlight.Calls(reg2[name].flight) == map[];
  }

  /** The `(any, error)` pair the single-flight closure returns, and back. */
  function ToOutcome(r: Result<ByteView, Error>): SingleFlight.Outcome<ByteView> {
    match r
    case Ok(v) => SingleFlight.Outcome(v, None)
    case Err(e) => SingleFlight.Outcome(ByteView([]), Some(e))
  }

  function FromOutcome(o: SingleFlight.Outcome<ByteView>): Result<ByteView, Error> {
    if o.err.Some? then Err(o.err.value) else Ok(o.res)
  }

  lemma OutcomeRoundTrip(r: Result<ByteView, Error>)
    ensures FromOutcome(ToOutcome(r)) == r
  {
  }

  /** `populateCache`. */
  function PopulateCache(g: Group, key: string, v: ByteView): (r: Group)
    ensures SameSetup(g, r) && r.flight == g.flight
    ensures MainCache.Valid(g.cache) ==> MainCache.Valid(r.cache)
    ensures MainCache.Valid(g.cache) ==> MainCache.Get(r.cache, key).value == Some(v)
  {
    AddFinds(g.cache, key, v);
    g.(cache := MainCache.Add(g.cache, key, v))
  }

  lemma AddFinds(c: MainCache.Cache, key: string, v: ByteView)
    ensures MainCache.Valid(c) ==> MainCache.Get(MainCache.Add(c, key, v), key).value == Some(v)
  {
    if MainCache.Valid(c) {
      MainCache.AddThenGet(c, key, v);
    }
  }

  /** `getFromPeer`: a nil getter is an error; otherwise the getter's
      error, or its value, for a request naming this group and the key. */
  function GetFromPeer(g: Group, peer: Option<PeerGetter>, key: string): (r: Result<ByteView, Error>)
    ensures peer.None? ==> r == Err(Error("peer is empty"))
    ensures peer.Some? ==> var res := peer.value.get(Request(g.name, key));
      (r.Ok? <==> res.Ok?) && (r.Ok? ==> r.value.b == res.value.value) && (r.Err? ==> r.error == res.error)
  {
    match peer
    case None => Err(Error("peer is empty"))
    case Some(p) =>
      match p.get(Request(g.name, key))
      case Err(e) => Err(e)
      case Ok(resp) => Ok(ByteView(resp.value))
  }

  /** `getLocally`: the loader's error unchanged, or a copy of its bytes,
      which is also put in the cache. */
  function GetLocally(g: Group, key: string): (r: Reply)
    ensures SameSetup(g, r.group) && r.group.flight == g.flight && r.trace == [Loaded(key)]
    ensures g.loader(key).Err? ==> r.value == Err(g.loader(key).error) && r.group.cache == g.cache
    ensures g.loader(key).Ok? ==> r.value.Ok? && r.value.value.b == g.loader(key).value
    ensures MainCache.Valid(g.cache) ==> MainCache.Valid(r.group.cache)
    ensures MainCache.Valid(g.cache) && r.value.Ok? ==> MainCache.Get(r.group.cache, key).value == Some(r.value.value)
  {
    match g.loader(key)
    case Err(e) => Reply(g, Err(e), [Loaded(key)])
    case Ok(bytes) =>
      var v := ByteView(Clone(bytes));
      Reply(PopulateCache(g, key, v), Ok(v), [Loaded(key)])
  }

  /** The closure `load` hands to the single-flight group: ask the seeker,
      if any; on a pick, try that peer and keep its value if it has one;
      otherwise load locally. */
  function Fetch(g: Group, key: string): (r: Reply)
    ensures SameSetup(g, r.group) && r.group.flight == g.flight
    ensures MainCache.Valid(g.cache) ==> MainCache.Valid(r.group.cache)
    ensures r.value.Err? ==> r.group.cache == g.cache
  {
    if g.peers.None? then GetLocally(g, key)
    else
      match g.peers.value(key)
      case NoPeer =>
        var local := GetLocally(g, key);
        local.(trace := [Sought(key)] + local.trace)
      case Picked(p) =>
        var asked := [Sought(key)] + (if p.Some? then [Fetched(Request(g.name, key))] else []);
        var res := GetFromPeer(g, p, key);
        if res.Ok? then Reply(g, res, asked)
        else
          var local := GetLocally(g, key);
          local.(trace := asked + local.trace)
  }

  /** `load`: run `Fetch` through the single-flight group. With no other
      lookup of the key in flight this runs the closure once and hands back
      its exact answer, leaving the in-flight map as it was. */
  function Load(g: Group, key: string): (r: Reply)
    requires key !in SingleFlight.Calls(g.flight)
    ensures SameSetup(g, r.group) && SingleFlight.Calls(r.group.flight) == SingleFlight.Calls(g.flight)
    ensures r.value == Fetch(g, key).value && r.trace == Fetch(g, key).trace
    ensures r.group.cache == Fetch(g, key).group.cache
  {
    var fetched := Fetch(g, key);
    var (flight, out) := SingleFlight.Do(g.flight, key, ToOutcome(fetched.value));
    OutcomeRoundTrip(fetched.value);
    Reply(fetched.group.(flight := flight), FromOutcome(out), fetched.trace)
  }

  /** `Group.Get`: the empty key is an error; a cache hit is answered from
      the cache; a miss goes through `Load`. An error never changes the
      cache, and validity is kept. A lookup already in flight for the same
      key is the single-flight state machine's concern and is excluded. */
  function Get(g: Group, key: string): (r: Reply)
    requires key !in SingleFlight.Calls(g.flight)
    ensures SameSetup(g, r.group) && SingleFlight.Calls(r.group.flight) == SingleFlight.Calls(g.flight)
    ensures r.value.Err? ==> r.group.cache == g.cache
    ensures Valid(g) ==> Valid(r.group)
  {
    if key == "" then Reply(g, Err(Error("key is empty")), [])
    else
      var hit := MainCache.Get(g.cache, key);
      if hit.value.Some? then
        Reply(g.(cache := hit.cache), Ok(hit.value.value), [])
      else
        Load(g, key)
  }

  /** The empty key is refused before anything is consulted: an error, and
      the group is untouched. */
  lemma GetEmptyKey(g: Group)
    requires "" !in SingleFlight.Calls(g.flight)
    ensures Get(g, "").value.Err? && Get(g, "").group == g && Get(g, "").trace == []
  {
  }

  /** A hit is answered from the cache alone: neither the seeker, any peer
      nor the loader is consulted, and replacing them changes nothing in the
      answer. */
  lemma GetHit(g: Group, key: string, loader: Loader, peers: Option<PeerSeeker>)
    requires key != "" && key !in SingleFlight.Calls(g.flight)
    requires key in MainCache.Keys(g.cache)
    ensures var r := Get(g, key);
      && r.trace == []
      && r.value == Ok(MainCache.Get(g.cache, key).value.value)
      && r.group.cache == MainCache.Get(g.cache, key).cache
      && Get(g.(loader := loader, peers := peers), key).value == r.value
  {
  }

  /** On a miss, when the seeker picks a peer whose getter answers, that
      value is returned as is and the local cache is left alone; the loader
      is not consulted. */
  lemma PeerServes(g: Group, key: string, p: PeerGetter, resp: Response)
    requires key != "" && key !in SingleFlight.Calls(g.flight)
    requires key !in MainCache.Keys(g.cache)
    requires g.peers.Some? && g.peers.value(key) == Picked(Some(p))
    requires p.get(Request(g.name, key)) == Ok(resp)
    ensures var r := Get(g, key);
      && r.value == Ok(ByteView(resp.value))
      && r.group.cache == g.cache
      && r.trace == [Sought(key), Fetched(Request(g.name, key))]
  {
  }

  /** Whether the peer path yields nothing for `key`: no seeker, the seeker
      declines, or the picked getter is nil or fails. */
  predicate PeerMisses(g: Group, key: string) {
    || g.peers.None?
    || g.peers.value(key).NoPeer?
    || GetFromPeer(g, g.peers.value(key).getter, key).Err?
  }

  /** On a miss the peer path does not answer, the loader decides: its bytes
      are returned and cached, or its error is returned and the cache is
      unchanged. The loader is consulted exactly once, last. */
  lemma FallsBackToLoader(g: Group, key: string)
    requires key != "" && key !in SingleFlight.Calls(g.flight)
    requires MainCache.Valid(g.cache) && key !in MainCache.Keys(g.cache)
    requires PeerMisses(g, key)
    ensures var r := Get(g, key);
      && |r.trace| > 0 && r.trace[|r.trace| - 1] == Loaded(key)
      && (forall i :: 0 <= i < |r.trace| - 1 ==> !r.trace[i].Loaded?)
      && (g.loader(key).Ok? ==>
            && r.value == Ok(ByteView(g.loader(key).value))
            && MainCache.Get(r.group.cache, key).value == Some(ByteView(g.loader(key).value)))
      && (g.loader(key).Err? ==> r.value == Err(g.loader(key).error) && r.group.cache == g.cache)
  {
    GetMissFetches(g, key);
    FetchFallsBack(g, key);
  }

  /** On a miss, `Get` answers what the fetch closure answers. */
  lemma GetMissFetches(g: Group, key: string)
    requires key != "" && key !in SingleFlight.Calls(g.flight)
    requires key !in MainCache.Keys(g.cache)
    ensures Get(g, key).value == Fetch(g, key).value
    ensures Get(g, key).trace == Fetch(g, key).trace
    ensures Get(g, key).group.cache == Fetch(g, key).group.cache
  {
  }

  lemma FetchFallsBack(g: Group, key: string)
    requires PeerMisses(g, key)
    ensures var r := Fetch(g, key);
      && r.value == GetLocally(g, key).value
      && r.group.cache == GetLocally(g, key).group.cache
      && |r.trace| > 0 && r.trace[|r.trace| - 1] == Loaded(key)
      && (forall i :: 0 <= i < |r.trace| - 1 ==> !r.trace[i].Loaded?)
  {
  }

  /** A second `Get` of a key the first one loaded is a hit: the loader runs
      at most once per key while the entry stays cached, and the answer is
      the same. */
  lemma LoadsOnce(g: Group, key: string)
    requires Valid(g) && key != ""
    requires g.peers.None?
    ensures var r1 := Get(g, key);
      r1.value.Ok? ==>
        var r2 := Get(r1.group, key);
        r2.value == r1.value && r2.trace == []
  {
  }
}

=== FILE: http.dfy ===
/** The HTTP peer pool (geecache/http.go), without the network: the
    server's decision from request path to status, the rebuilding of the
    ring and getter table, the choice of peer for a key, and the client's
    URL and error handling. The transport, protobuf coding and
    `url.QueryEscape` are parameters. */
module HttpPool {
  import opened Wrappers
  import opened ByteViews
  import opened Strings
  import CH = ConsistentHash
  import SingleFlight
  import GeeCache

  const DefaultPath: string := "/geecache/"
  const DefaultReplicas: int := 10

  /** The client timeout, in seconds. */
  const TimeoutSeconds: nat := 5

  datatype HttpGetter = HttpGetter(baseURL: string, timeout: nat)

  /** `HTTPPool`: the ring is nil until `Set`. */
  datatype Pool = Pool(basePath: string, self: string, ring: Option<CH.Ring>, getters: map<string, HttpGetter>)

  /** The answer of `Seek`: not ok, or ok with the getter registered for the
      peer (nil when there is none). */
  datatype Pick = NoPeer | Picked(getter: Option<HttpGetter>)

  function NewHTTPPool(self: string): (p: Pool)
    ensures p.basePath == DefaultPath && p.self == self && p.ring.None? && p.getters == map[]
  {
    Pool(DefaultPath, self, None, map[])
  }

  /** The ring `Set` builds: 10 replicas and the default hash. */
  function SetRing(peers: seq<string>, crc32: CH.HashFn): CH.Ring {
    CH.Add(CH.New(DefaultReplicas, None, crc32), peers)
  }

  /** `Set`: replaces the ring by a fresh one over `peers` and the getter
      table by one getter per peer, addressed at the peer's base path. */
  function Set(pool: Pool, peers: seq<string>, crc32: CH.HashFn): (r: Pool)
    ensures r.basePath == pool.basePath && r.self == pool.self
    ensures r.ring.Some? && CH.Valid(r.ring.value)
    ensures r.ring.value.replicas == DefaultReplicas && r.ring.value.hash == crc32
    ensures |r.ring.value.keys| == DefaultReplicas * |peers|
    ensures r.getters.Keys == (set p | p in peers)
    ensures forall p :: p in r.getters ==> r.getters[p] == HttpGetter(p + pool.basePath, TimeoutSeconds)
  {
    var ring := SetRing(peers, crc32);
    var blank := CH.New(DefaultReplicas, None, crc32);
    CH.NodesLength(blank.hash, DefaultReplicas, peers);
    CH.OffsetIsProduct(|peers|, DefaultReplicas);
    assert |multiset(ring.keys)| == |multiset(CH.Hashes(CH.AddedNodes(blank, peers)))|;
    Pool(pool.basePath, pool.self, Some(ring),
      map p | p in peers :: HttpGetter(p + pool.basePath, TimeoutSeconds))
  }

  /** The getter `Set` registers for a peer addresses that peer's base
      path. */
  lemma SetGetter(pool: Pool, peers: seq<string>, crc32: CH.HashFn, peer: string)
    requires peer in peers
    ensures var p := Set(pool, peers, crc32);
      peer in p.getters && p.getters[peer] == HttpGetter(peer + pool.basePath, TimeoutSeconds)
  {
  }

  /** The peer the ring assigns to `key` ("" for the empty key, and before
      `Set`). */
  function Owner(pool: Pool, key: string): (o: string)
    requires key == "" || (pool.ring.Some? && |pool.ring.value.keys| > 0)
    ensures key == "" || pool.ring.None? ==> o == ""
    ensures key != "" && pool.ring.Some? && CH.Valid(pool.ring.value) ==> o in pool.ring.value.hashMap.Values
  {
    if pool.ring.None? then "" else CH.Get(pool.ring.value, key)
  }

  /** `Seek`: the owner of `key`, unless that is nobody or this process
      itself. Before `Set`, or with no peers, only the empty key can be
      asked: any other key makes the ring lookup panic. */
  function Seek(pool: Pool, key: string): (r: Pick)
    requires key == "" || (pool.ring.Some? && |pool.ring.value.keys| > 0)
    ensures r.NoPeer? <==> Owner(pool, key) == "" || Owner(pool, key) == pool.self
    ensures key == "" ==> r.NoPeer?
    ensures r.Picked? ==> r.getter == (if Owner(pool, key) in pool.getters then Some(pool.getters[Owner(pool, key)]) else None)
  {
    var peer := Owner(pool, key);
    if peer == "" || peer == pool.self then NoPeer
    else Picked(if peer in pool.getters then Some(pool.getters[peer]) else None)
  }

  /** After `Set` with at least one peer, every non-empty key is either kept
      locally (its owner is this process or unnamed) or sent to its owner, a
      peer of the list, through that peer's own getter: the getter is never
      nil. */
  lemma SeekAfterSet(pool: Pool, peers: seq<string>, crc32: CH.HashFn, key: string)
    requires |peers| > 0 && key != ""
    ensures var p := Set(pool, peers, crc32);
      && |p.ring.value.keys| > 0
      && Owner(p, key) in peers
      && (Seek(p, key).NoPeer? <==> Owner(p, key) == "" || Owner(p, key) == pool.self)
      && (Seek(p, key).Picked? ==> Seek(p, key).getter == Some(HttpGetter(Owner(p, key) + pool.basePath, TimeoutSeconds)))
  {
    CH.OwnerWasAdded(DefaultReplicas, None, crc32, peers, key);
  }

  /** The body of an HTTP answer: an error text or the encoded value. */
  datatype Body = Text(text: string) | Octets(data: seq<byte>)

  /** The outcome of serving one request: the registry with the group's new
      state, the status and the body. */
  datatype Served = Served(registry: GeeCache.Registry, status: nat, body: Body)

  /** What `http.Error` writes: the message and a newline. */
  function ErrorText(msg: string): Body {
    Text(msg + "\n")
  }

  /** The two path segments after the base path, when there are exactly
      two; empty segments are accepted. */
  function ParsePath(basePath: string, path: string): (r: Option<(string, string)>)
    ensures r.Some? ==> HasPrefix(path, basePath) && path == basePath + r.value.0 + "/" + r.value.1
    ensures r.Some? ==> forall j :: 0 <= j < |r.value.0| ==> r.value.0[j] != '/'
    ensures r.Some? ==> forall j :: 0 <= j < |r.value.1| ==> r.value.1[j] != '/'
  {
    if !HasPrefix(path, basePath) then None
    else
      var parts := Split(TrimPrefix(path, basePath), '/');
      if |parts| != 2 then None
      else
        assert Join(parts, '/') == parts[0] + "/" + parts[1];
        Some((parts[0], parts[1]))
  }

  /** Separator-free segments joined after the base path parse back to
      themselves: the converse of `ParsePath`. */
  lemma ParseBuiltPath(basePath: string, group: string, key: string)
    requires forall j :: 0 <= j < |group| ==> group[j] != '/'
    requires forall j :: 0 <= j < |key| ==> key[j] != '/'
    ensures ParsePath(basePath, basePath + group + "/" + key) == Some((group, key))
  {
    var path := basePath + group + "/" + key;
    assert path[..|basePath|] == basePath;
    assert TrimPrefix(path, basePath) == group + "/" + key;
    assert Join([group, key], '/') == group + "/" + key;
    SplitJoin([group, key], '/');
  }

  /** `ServeHTTP`: 400 for a path outside the base path or not made of
      exactly two segments, 404 for an unknown group, 500 when the group's
      `Get` or the encoding fails, else 200 with the encoded value. */
  function ServeHTTP(pool: Pool, reg: GeeCache.Registry, path: string,
                     marshal: seq<byte> -> Result<seq<byte>, Error>): (r: Served)
    requires forall n :: n in reg ==> SingleFlight.Calls(reg[n].flight) == map[]
    ensures r.status in {200, 400, 404, 500}
    ensures r.status == 400 <==> ParsePath(pool.basePath, path).None?
    ensures r.status == 404 <==> ParsePath(pool.basePath, path).Some? && ParsePath(pool.basePath, path).value.0 !in reg
    ensures r.status == 400 || r.status == 404 ==> r.registry == reg
    ensures r.status == 200 ==> var (name, key) := ParsePath(pool.basePath, path).value;
      var reply := GeeCache.Get(reg[name], key);
      reply.value.Ok? && r.body.Octets? && marshal(reply.value.value.b) == Ok(r.body.data)
  {
    match ParsePath(pool.basePath, path)
    case None => Served(reg, 400, ErrorText("invalid request path: " + path))
    case Some((name, key)) =>
      match GeeCache.GetGroup(reg, name)
      case None => Served(reg, 404, ErrorText("cache group not found: " + name))
      case Some(g) =>
        var reply := GeeCache.Get(g, key);
        var reg' := reg[name := reply.group];
        match reply.value
        case Err(e) => Served(reg', 500, ErrorText("server error: " + e.msg))
        case Ok(v) =>
          match marshal(v.b)
          case Err(e) => Served(reg', 500, ErrorText("proto marshal error: " + e.msg))
          case Ok(data) => Served(reg', 200, Octets(data))
  }

  /** A request path built from a registered group and a key without
      separators reaches that group's `Get` for that key: 200 with its
      encoded value, or 500 when it fails. */
  lemma ServeBuiltPath(pool: Pool, reg: GeeCache.Registry, group: string, key: string,
                       marshal: seq<byte> -> Result<seq<byte>, Error>)
    requires forall n :: n in reg ==> SingleFlight.Calls(reg[n].flight) == map[]
    requires forall j :: 0 <= j < |group| ==> group[j] != '/'
    requires forall j :: 0 <= j < |key| ==> key[j] != '/'
    requires group in reg
    ensures var r := ServeHTTP(pool, reg, pool.basePath + group + "/" + key, marshal);
      var reply := GeeCache.Get(reg[group], key);
      && r.registry == reg[group := reply.group]
      && (r.status == 200 <==> reply.value.Ok? && marshal(reply.value.value.b).Ok?)
      && (r.status != 200 ==> r.status == 500)
  {
    ParseBuiltPath(pool.basePath, group, key);
  }

  /** The server does not insist on non-empty segments: a path with an
      empty group name passes the shape check and is refused only because
      no group has that name. */
  lemma EmptyGroupSegment(pool: Pool, reg: GeeCache.Registry, key: string,
                          marshal: seq<byte> -> Result<seq<byte>, Error>)
    requires forall n :: n in reg ==> SingleFlight.Calls(reg[n].flight) == map[]
    requires forall j :: 0 <= j < |key| ==> key[j] != '/'
    requires "" !in reg
    ensures ServeHTTP(pool, reg, pool.basePath + "/" + key, marshal).status == 404
  {
    ParseBuiltPath(pool.basePath, "", key);
    assert pool.basePath + "" + "/" + key == pool.basePath + "/" + key;
  }

  /** What the transport hands back: status code and text, and the body or
      the error reading it. */
  datatype HttpResponse = HttpResponse(statusCode: int, status: string, body: Result<seq<byte>, Error>)

  /** The URL the getter asks: its base URL, then the escaped group and key
      separated by a slash. */
  function RequestURL(getter: HttpGetter, req: GeeCache.Request, escape: string -> string): (url: string)
    ensures HasPrefix(url, getter.baseURL)
    ensures TrimPrefix(url, getter.baseURL) == escape(req.group) + "/" + escape(req.key)
  {
    PrefixOfConcat(getter.baseURL, escape(req.group) + "/" + escape(req.key));
    getter.baseURL + (escape(req.group) + "/" + escape(req.key))
  }

  /** `httpGetter.Get`: the transport's error unchanged; a status other than
      200, an unreadable body or an undecodable body as an error that says
      which; else the decoded response. */
  function HttpGet(getter: HttpGetter, req: GeeCache.Request, escape: string -> string,
                 transport: string -> Result<HttpResponse, Error>,
                 unmarshal: seq<byte> -> Result<GeeCache.Response, Error>): (r: Result<GeeCache.Response, Error>)
    ensures var t := transport(RequestURL(getter, req, escape));
      && (t.Err? ==> r == Err(t.error))
      && (t.Ok? && t.value.statusCode != 200 ==> r == Err(Error("server returned: " + t.value.status)))
      && (t.Ok? && t.value.statusCode == 200 && t.value.body.Err? ==>
            r == Err(Error("reading response body: " + t.value.body.error.msg)))
      && (t.Ok? && t.value.statusCode == 200 && t.value.body.Ok? && unmarshal(t.value.body.value).Err? ==>
            r == Err(Error("decoding response body: " + unmarshal(t.value.body.value).error.msg)))
      && (r.Ok? <==> t.Ok? && t.value.statusCode == 200 && t.value.body.Ok? && unmarshal(t.value.body.value).Ok?)
      && (r.Ok? ==> r.value == unmarshal(t.value.body.value).value)
  {
    match transport(RequestURL(getter, req, escape))
    case Err(e) => Err(e)
    case Ok(resp) =>
      if resp.statusCode != 200 then Err(Error("server returned: " + resp.status))
      else
        match resp.body
        case Err(e) => Err(Error("reading response body: " + e.msg))
        case Ok(bytes) =>
          match unmarshal(bytes)
          case Err(e) => Err(Error("decoding response body: " + e.msg))
          case Ok(out) => Ok(out)
  }

  /** No slash in `s`. */
  predicate NoSlash(s: string) {
    forall j :: 0 <= j < |s| ==> s[j] != '/'
  }

  /** Slashes in a group and key joined by a slash: one more than they
      hold. */
  lemma {:induction false} JoinedSlashes(group: string, key: string)
    ensures Count(group + "/" + key, '/') == Count(group, '/') + 1 + Count(key, '/')
  {
    CountAppend(group, "/", '/');
    CountAppend(group + "/", key, '/');
    assert Count("/", '/') == 1;
  }

  /** A string with a slash counts one. */
  lemma HasSlash(s: string)
    requires !NoSlash(s)
    ensures Count(s, '/') >= 1
  {
    var j :| 0 <= j < |s| && s[j] == '/';
    CountPresent(s, '/', j);
  }

  /** Two slash-free strings joined by a slash can only be split at that
      slash into slash-free parts. */
  lemma SingleSlash(group: string, key: string, a: string, b: string)
    requires group + "/" + key == a + "/" + b && NoSlash(a) && NoSlash(b)
    ensures NoSlash(group) && NoSlash(key)
  {
    JoinedSlashes(group, key);
    JoinedSlashes(a, b);
    CountAbsent(a, '/');
    CountAbsent(b, '/');
    if !NoSlash(group) {
      HasSlash(group);
    } else if !NoSlash(key) {
      HasSlash(key);
    }
  }

  /** Two paths joined after the same base path with slash-free parts on
      one side have slash-free parts on the other. */
  lemma SamePath(basePath: string, group: string, key: string, a: string, b: string)
    requires basePath + group + "/" + key == basePath + a + "/" + b
    requires NoSlash(a) && NoSlash(b)
    ensures NoSlash(group) && NoSlash(key)
  {
    var path := basePath + group + "/" + key;
    assert path == basePath + (group + "/" + key);
    assert path == basePath + (a + "/" + b);
    assert path[|basePath|..] == group + "/" + key;
    SingleSlash(group, key, a, b);
  }

  /** What the server parses out of a joined path is the group and the
      key themselves, so these hold no slash. */
  lemma ParsedHasNoSlash(basePath: string, group: string, key: string)
    requires ParsePath(basePath, basePath + group + "/" + key).Some?
    ensures NoSlash(group) && NoSlash(key)
  {
    var r := ParsePath(basePath, basePath + group + "/" + key);
    SamePath(basePath, group, key, r.value.0, r.value.1);
  }

  /** A path whose group or key holds a slash has more than two segments,
      so the server refuses it. */
  lemma SlashRefused(basePath: string, group: string, key: string)
    requires !NoSlash(group) || !NoSlash(key)
    ensures ParsePath(basePath, basePath + group + "/" + key).None?
  {
    if ParsePath(basePath, basePath + group + "/" + key).Some? {
      ParsedHasNoSlash(basePath, group, key);
    }
  }

  /** The client and server agree on the path up to escaping. The server
      takes the URL's path (the URL without the peer's address) in its
      percent-decoded form, `unescape`. When decoding passes the base path
      and the separating slash through, the server sees the group and the
      key as escaped and decoded again. It parses them back exactly when
      neither holds a slash, and refuses the path otherwise, so such a
      request is answered 400. Every getter `Set` builds is addressed at a
      peer's base path, by `SetGetter`. */
  lemma ClientPathParses(basePath: string, peer: string, getter: HttpGetter,
                         req: GeeCache.Request, escape: string -> string, unescape: string -> string)
    requires getter.baseURL == peer + basePath
    requires unescape(basePath + escape(req.group) + "/" + escape(req.key))
      == basePath + unescape(escape(req.group)) + "/" + unescape(escape(req.key))
    ensures var url := RequestURL(getter, req, escape);
      var g, k := unescape(escape(req.group)), unescape(escape(req.key));
      && HasPrefix(url, peer)
      && unescape(url[|peer|..]) == basePath + g + "/" + k
      && (NoSlash(g) && NoSlash(k) ==> ParsePath(basePath, unescape(url[|peer|..])) == Some((g, k)))
      && (!NoSlash(g) || !NoSlash(k) ==> ParsePath(basePath, unescape(url[|peer|..])).None?)
  {
    var url := RequestURL(getter, req, escape);
    var g, k := unescape(escape(req.group)), unescape(escape(req.key));
    assert url == peer + (basePath + escape(req.group) + "/" + escape(req.key));
    assert url[|peer|..] == basePath + escape(req.group) + "/" + escape(req.key);
    PrefixOfConcat(peer, basePath + escape(req.group) + "/" + escape(req.key));
    if NoSlash(g) && NoSlash(k) {
      ParseBuiltPath(basePath, g, k);
    } else {
      SlashRefused(basePath, g, k);
    }
  }

  /** A pick of the pool as a pick of the group, each getter turned into a
      client by `client`. */
  function ToPick(p: Pick, client: HttpGetter -> GeeCache.PeerGetter): (r: GeeCache.Pick)
    ensures r.NoPeer? <==> p.NoPeer?
    ensures p.Picked? ==> (r.getter.Some? <==> p.getter.Some?)
    ensures p.Picked? && p.getter.Some? ==> r.getter == Some(client(p.getter.value))
  {
    match p
    case NoPeer => GeeCache.NoPeer
    case Picked(g) => GeeCache.Picked(if g.Some? then Some(client(g.value)) else None)
  }

  /** The pool registered as a group's `PeerPicker`: its `Seek`, with
      getters as clients. It is defined once the ring can place keys. A key
      stays local iff its owner is unnamed or this process; otherwise the
      group gets the client of the getter registered for the owner, or nil
      when none is. */
  function Seeker(pool: Pool, client: HttpGetter -> GeeCache.PeerGetter): (s: GeeCache.PeerSeeker)
    requires pool.ring.Some? && |pool.ring.value.keys| > 0
    ensures forall key :: s(key).NoPeer? <==> Owner(pool, key) == "" || Owner(pool, key) == pool.self
    ensures forall key :: s(key).Picked? ==>
      s(key).getter == (if Owner(pool, key) in pool.getters then Some(client(pool.getters[Owner(pool, key)])) else None)
  {
    key => ToPick(Seek(pool, key), client)
  }

  /** After `Set` with at least one peer, the pool as a group's seeker keeps
      a key local when its owner is this process, and otherwise hands the
      group the client of the owner's getter, never a nil one. */
  lemma SeekerAfterSet(pool: Pool, peers: seq<string>, crc32: CH.HashFn,
                       client: HttpGetter -> GeeCache.PeerGetter, key: string)
    requires |peers| > 0 && key != ""
    ensures var p := Set(pool, peers, crc32);
      && |p.ring.value.keys| > 0
      && Owner(p, key) in peers
      && (Seeker(p, client)(key).NoPeer? <==> Owner(p, key) == "" || Owner(p, key) == pool.self)
      && (Owner(p, key) != "" && Owner(p, key) != pool.self ==>
            Seeker(p, client)(key) == GeeCache.Picked(Some(client(HttpGetter(Owner(p, key) + pool.basePath, TimeoutSeconds)))))
  {
    SeekAfterSet(pool, peers, crc32, key);
    var p := Set(pool, peers, crc32);
    assert Seeker(p, client)(key) == ToPick(Seek(p, key), client);
  }
}

=== FILE: lru.dfy ===
/** The bounded LRU cache. Its implementation file is not part of this
    model; the behaviour below is the one its tests fix
    (geecache/lru/lru_test.go): an entry weighs `len(key) + value.Len()`,
    where `len` counts the bytes of the key's UTF-8 encoding,
    `Get` promotes, `Add` inserts or updates at the most recently used end and
    then evicts from the least recently used end until the total fits, and
    the eviction callback sees the evicted entries in eviction order. A
    capacity of zero or less means unbounded, and the entry just added is
    never evicted. */
module Lru {
  import opened Wrappers
  import opened Strings

  datatype Entry<V> = Entry(key: string, value: V)

  /** `entries` runs from the least recently used entry to the most recently
      used one; `valueLen` is the values' `Len` method and `onEvicted` says
      whether an eviction callback is installed. */
  datatype Cache<!V> = Cache(maxBytes: int, valueLen: V -> nat, onEvicted: bool, entries: seq<Entry<V>>)

  /** The result of `Get`: the cache with its new recency order, and the
      value if the key was present. */
  datatype Lookup<!V> = Lookup(cache: Cache<V>, value: Option<V>)

  /** The result of `Add`: the new cache and the arguments the eviction
      callback received, in the order it received them. */
  datatype Added<!V> = Added(cache: Cache<V>, evicted: seq<Entry<V>>)

  function EntrySize<V>(valueLen: V -> nat, e: Entry<V>): nat {
    Utf8Len(e.key) + valueLen(e.value)
  }

  /** Total weight of a run of entries. */
  function Size<V>(valueLen: V -> nat, es: seq<Entry<V>>): nat {
    if |es| == 0 then 0 else EntrySize(valueLen, es[0]) + Size(valueLen, es[1..])
  }

  lemma {:induction false} SizeAppend<V>(valueLen: V -> nat, a: seq<Entry<V>>, b: seq<Entry<V>>)
    ensures Size(valueLen, a + b) == Size(valueLen, a) + Size(valueLen, b)
    decreases |a|
  {
    if |a| == 0 {
      assert a + b == b;
    } else {
      assert (a + b)[1..] == a[1..] + b;
      SizeAppend(valueLen, a[1..], b);
    }
  }

  lemma SizeOne<V>(valueLen: V -> nat, e: Entry<V>)
    ensures Size(valueLen, [e]) == EntrySize(valueLen, e)
  {
    assert [e][1..] == [];
  }

  lemma KeySetOne<V>(e: Entry<V>)
    ensures KeySet([e]) == {e.key}
  {
    assert [e][0] == e;
  }

  /** The bytes the cache holds (`nbytes`). */
  function Bytes<V>(c: Cache<V>): nat {
    Size(c.valueLen, c.entries)
  }

  /** `Len`: the number of entries, which is the number of keys held. */
  function Len<V>(c: Cache<V>): (n: nat)
    ensures DistinctKeys(c.entries) ==> n == |KeySet(c.entries)|
  {
    DistinctCount(c.entries);
    |c.entries|
  }

  function KeySet<V>(es: seq<Entry<V>>): set<string> {
    set i | 0 <= i < |es| :: es[i].key
  }

  predicate DistinctKeys<V>(es: seq<Entry<V>>) {
    forall i, j :: 0 <= i < j < |es| ==> es[i].key != es[j].key
  }

  lemma {:induction false} DistinctCount<V>(es: seq<Entry<V>>)
    ensures DistinctKeys(es) ==> |KeySet(es)| == |es|
    decreases |es|
  {
    if |es| > 0 && DistinctKeys(es) {
      var tail := es[1..];
      assert DistinctKeys(tail) by {
        forall i, j | 0 <= i < j < |tail|
          ensures tail[i].key != tail[j].key
        {
          assert tail[i] == es[i + 1] && tail[j] == es[j + 1];
        }
      }
      DistinctCount(tail);
      assert KeySet(es) == {es[0].key} + KeySet(tail) by {
        forall k | k in KeySet(es)
          ensures k in {es[0].key} + KeySet(tail)
        {
          var i :| 0 <= i < |es| && es[i].key == k;
          if i > 0 {
            assert tail[i - 1] == es[i];
          }
        }
        forall k | k in KeySet(tail)
          ensures k in KeySet(es)
        {
          var i :| 0 <= i < |tail| && tail[i].key == k;
          assert es[i + 1] == tail[i];
        }
      }
      assert es[0].key !in KeySet(tail) by {
        forall i | 0 <= i < |tail|
          ensures tail[i].key != es[0].key
        {
          assert tail[i] == es[i + 1];
        }
      }
    }
  }

  /** The size bound: unbounded capacity, at most the one entry that was
      just added, or a total within capacity. */
  predicate WithinCapacity<V>(c: Cache<V>) {
    c.maxBytes <= 0 || |c.entries| <= 1 || Bytes(c) <= c.maxBytes
  }

  predicate Valid<V>(c: Cache<V>) {
    DistinctKeys(c.entries) && WithinCapacity(c)
  }

  /** `New(maxBytes, onEvicted)`: an empty cache. */
  function New<V>(maxBytes: int, valueLen: V -> nat, onEvicted: bool): (c: Cache<V>)
    ensures Valid(c) && Len(c) == 0 && Bytes(c) == 0
    ensures c.maxBytes == maxBytes && c.onEvicted == onEvicted && c.valueLen == valueLen
  {
    Cache(maxBytes, valueLen, onEvicted, [])
  }

  /** Position of the entry for `key`, if any. */
  function Find<V>(es: seq<Entry<V>>, key: string): (r: Option<nat>)
    ensures r.Some? ==> r.value < |es| && es[r.value].key == key
    ensures r.None? ==> key !in KeySet(es)
  {
    if |es| == 0 then None
    else if es[0].key == key then Some(0)
    else
      match Find(es[1..], key)
      case Some(i) => Some(i + 1)
      case None =>
        assert forall i :: 1 <= i < |es| ==> es[i].key == es[1..][i - 1].key;
        None
  }

  /** The entries with entry `i` taken out and `e` appended at the most
      recently used end. */
  function MoveToBack<V>(es: seq<Entry<V>>, i: nat, e: Entry<V>): (r: seq<Entry<V>>)
    requires i < |es|
    ensures |r| == |es| && r[|r| - 1] == e
    ensures forall j :: 0 <= j < i ==> r[j] == es[j]
    ensures forall j :: i <= j < |r| - 1 ==> r[j] == es[j + 1]
  {
    es[..i] + es[i + 1..] + [e]
  }

  lemma MoveKeys<V>(es: seq<Entry<V>>, i: nat, e: Entry<V>)
    requires i < |es| && e.key == es[i].key
    ensures KeySet(MoveToBack(es, i, e)) == KeySet(es)
  {
    var r := MoveToBack(es, i, e);
    forall k | k in KeySet(es)
      ensures k in KeySet(r)
    {
      var j :| 0 <= j < |es| && es[j].key == k;
      if j < i {
        assert r[j] == es[j];
      } else if j == i {
        assert r[|r| - 1].key == k;
      } else {
        assert r[j - 1] == es[j];
      }
    }
    forall k | k in KeySet(r)
      ensures k in KeySet(es)
    {
      var j :| 0 <= j < |r| && r[j].key == k;
      if j < i {
        assert es[j] == r[j];
      } else if j < |r| - 1 {
        assert es[j + 1] == r[j];
      } else {
        assert es[i].key == k;
      }
    }
  }

  lemma MoveDistinct<V>(es: seq<Entry<V>>, i: nat, e: Entry<V>)
    requires i < |es| && e.key == es[i].key
    ensures DistinctKeys(es) ==> DistinctKeys(MoveToBack(es, i, e))
  {
    if DistinctKeys(es) {
      var r := MoveToBack(es, i, e);
      forall a, b | 0 <= a < b < |r|
        ensures r[a].key != r[b].key
      {
        var a' := if a < i then a else a + 1;
        var b' := if b == |r| - 1 then i else if b < i then b else b + 1;
        assert r[a].key == es[a'].key && r[b].key == es[b'].key;
      }
    }
  }

  lemma MoveSize<V>(valueLen: V -> nat, es: seq<Entry<V>>, i: nat, e: Entry<V>)
    requires i < |es|
    ensures Size(valueLen, MoveToBack(es, i, e))
      == Size(valueLen, es) - EntrySize(valueLen, es[i]) + EntrySize(valueLen, e)
  {
    var front, back := es[..i], es[i + 1..];
    SizeSplit(valueLen, es, i);
    SizeAppend(valueLen, front + back, [e]);
    SizeAppend(valueLen, front, back);
    SizeOne(valueLen, e);
  }

  /** The weight of a run is that of the part before entry `i`, entry `i`
      and the part after it. */
  lemma SizeSplit<V>(valueLen: V -> nat, es: seq<Entry<V>>, i: nat)
    requires i < |es|
    ensures Size(valueLen, es) == Size(valueLen, es[..i]) + EntrySize(valueLen, es[i]) + Size(valueLen, es[i + 1..])
  {
    assert es == es[..i] + es[i..];
    SizeAppend(valueLen, es[..i], es[i..]);
    assert es[i..][1..] == es[i + 1..];
  }

  /** `Get`: a hit returns the key's value and makes its entry the most
      recently used; a miss changes nothing. */
  function Get<V>(c: Cache<V>, key: string): (r: Lookup<V>)
    ensures r.value.Some? <==> key in KeySet(c.entries)
    ensures r.value.None? ==> r.cache == c
    ensures r.value.Some? ==>
      (|r.cache.entries| > 0 && r.cache.entries[|r.cache.entries| - 1] == Entry(key, r.value.value))
    ensures r.value.Some? ==>
      exists i :: (0 <= i < |c.entries| && c.entries[i].key == key && r.value.value == c.entries[i].value
        && r.cache.entries == c.entries[..i] + c.entries[i + 1..] + [c.entries[i]])
    ensures DistinctKeys(c.entries) ==>
      forall i :: 0 <= i < |c.entries| && c.entries[i].key == key ==> r.value == Some(c.entries[i].value)
    ensures r.cache.maxBytes == c.maxBytes && r.cache.valueLen == c.valueLen && r.cache.onEvicted == c.onEvicted
    ensures Bytes(r.cache) == Bytes(c) && Len(r.cache) == Len(c)
    ensures KeySet(r.cache.entries) == KeySet(c.entries)
    ensures Valid(c) ==> Valid(r.cache)
  {
    match Find(c.entries, key)
    case None => Lookup(c, None)
    case Some(i) =>
      var e := c.entries[i];
      MoveKeys(c.entries, i, e);
      MoveSize(c.valueLen, c.entries, i, e);
      MoveDistinct(c.entries, i, e);
      assert MoveToBack(c.entries, i, e) == c.entries[..i] + c.entries[i + 1..] + [c.entries[i]];
      Lookup(c.(entries := MoveToBack(c.entries, i, e)), Some(e.value))
  }

  /** The insert-or-update step of `Add`: an existing entry for `key` gets
      the new value and moves to the most recently used end; otherwise a new
      entry is pushed there. */
  function Insert<V>(valueLen: V -> nat, es: seq<Entry<V>>, key: string, value: V): (r: seq<Entry<V>>)
    ensures |r| > 0 && r[|r| - 1] == Entry(key, value)
    ensures KeySet(r) == KeySet(es) + {key}
    ensures DistinctKeys(es) ==> DistinctKeys(r)
    ensures key !in KeySet(es) ==> r == es + [Entry(key, value)]
    ensures key !in KeySet(es) ==> Size(valueLen, r) == Size(valueLen, es) + Utf8Len(key) + valueLen(value)
  {
    match Find(es, key)
    case Some(i) =>
      MoveKeys(es, i, Entry(key, value));
      MoveDistinct(es, i, Entry(key, value));
      MoveToBack(es, i, Entry(key, value))
    case None =>
      var r := es + [Entry(key, value)];
      SizeAppend(valueLen, es, [Entry(key, value)]);
      assert Size(valueLen, [Entry(key, value)]) == Utf8Len(key) + valueLen(value);
      assert KeySet(r) == KeySet(es) + {key} by {
        assert forall j :: 0 <= j < |es| ==> r[j] == es[j];
        assert r[|es|].key == key;
      }
      r
  }

  lemma SuffixDistinct<V>(es: seq<Entry<V>>, k: nat)
    requires k <= |es|
    ensures DistinctKeys(es) ==> DistinctKeys(es[k..])
  {
    if DistinctKeys(es) {
      forall a, b | 0 <= a < b < |es[k..]|
        ensures es[k..][a].key != es[k..][b].key
      {
        assert es[k..][a] == es[k + a] && es[k..][b] == es[k + b];
      }
    }
  }

  lemma SuffixKeys<V>(es: seq<Entry<V>>, k: nat)
    requires k <= |es|
    ensures KeySet(es[k..]) <= KeySet(es)
  {
    forall key | key in KeySet(es[k..])
      ensures key in KeySet(es)
    {
      var j :| 0 <= j < |es[k..]| && es[k..][j].key == key;
      assert es[k + j].key == key;
    }
  }

  /** How many entries the eviction loop removes from the least recently
      used end of `es`: it goes on while the capacity is positive, the total
      exceeds it and more than the newest entry is left. It never removes
      every entry. */
  function Gone<V>(valueLen: V -> nat, maxBytes: int, es: seq<Entry<V>>): (k: nat)
    ensures k <= |es| && (|es| > 0 ==> k < |es|)
    decreases |es|
  {
    if maxBytes > 0 && Size(valueLen, es) > maxBytes && |es| > 1 then 1 + Gone(valueLen, maxBytes, es[1..])
    else 0
  }

  /** After the loop the rest fits: the capacity is unbounded, one entry
      is left, or the total is within capacity. */
  lemma {:induction false} GoneFits<V>(valueLen: V -> nat, maxBytes: int, es: seq<Entry<V>>)
    ensures var k := Gone(valueLen, maxBytes, es);
      maxBytes <= 0 || |es| - k <= 1 || Size(valueLen, es[k..]) <= maxBytes
    decreases |es|
  {
    if maxBytes > 0 && Size(valueLen, es) > maxBytes && |es| > 1 {
      GoneFits(valueLen, maxBytes, es[1..]);
      var k := Gone(valueLen, maxBytes, es);
      assert es[1..][k - 1..] == es[k..];
    } else {
      assert es[0..] == es;
    }
  }

  /** The loop removes nothing it did not need to: if it removed anything,
      the run from the last removed entry on was still over the bound. */
  lemma {:induction false} GoneMinimal<V>(valueLen: V -> nat, maxBytes: int, es: seq<Entry<V>>)
    ensures var k := Gone(valueLen, maxBytes, es);
      k > 0 ==> maxBytes > 0 && Size(valueLen, es[k - 1..]) > maxBytes
    decreases |es|
  {
    if maxBytes > 0 && Size(valueLen, es) > maxBytes && |es| > 1 {
      GoneMinimal(valueLen, maxBytes, es[1..]);
      var k := Gone(valueLen, maxBytes, es);
      if k == 1 {
        assert es[k - 1..] == es;
      } else {
        assert es[1..][k - 2..] == es[k - 1..];
      }
    }
  }

  /** The eviction loop: it drops the `Gone` least recently used entries
      and reports exactly them to the callback, oldest first (nothing when
      no callback is installed). */
  function Evict<V>(c: Cache<V>): Added<V>
  {
    var k := Gone(c.valueLen, c.maxBytes, c.entries);
    Added(c.(entries := c.entries[k..]), if c.onEvicted then c.entries[..k] else [])
  }

  /** What the eviction loop promises: it removes a prefix of the recency
      order and reports exactly that prefix, oldest first, to the callback
      (nothing without one); it keeps at least the newest entry; afterwards
      the cache is unbounded, within capacity or down to one entry; and it
      removes nothing the bound did not require. */
  lemma EvictSpec<V>(c: Cache<V>)
    ensures var r := Evict(c);
      var k := |c.entries| - |r.cache.entries|;
      && r.cache.maxBytes == c.maxBytes && r.cache.valueLen == c.valueLen && r.cache.onEvicted == c.onEvicted
      && 0 <= k && r.cache.entries == c.entries[k..]
      && r.evicted == (if c.onEvicted then c.entries[..k] else [])
      && (|c.entries| > 0 ==> |r.cache.entries| > 0)
      && WithinCapacity(r.cache)
      && (k > 0 ==> c.maxBytes > 0 && Size(c.valueLen, c.entries[k - 1..]) > c.maxBytes)
  {
    GoneFits(c.valueLen, c.maxBytes, c.entries);
    GoneMinimal(c.valueLen, c.maxBytes, c.entries);
  }

  /** `Add`: the entry for `key` ends up holding `value` at the most recently
      used end, and is never evicted; the cache stays valid and learns no key
      but `key`. */
  function Add<V>(c: Cache<V>, key: string, value: V): (r: Added<V>)
    ensures r.cache.maxBytes == c.maxBytes && r.cache.valueLen == c.valueLen && r.cache.onEvicted == c.onEvicted
    ensures |r.cache.entries| > 0 && r.cache.entries[|r.cache.entries| - 1] == Entry(key, value)
    ensures Valid(c) ==> Valid(r.cache)
    ensures KeySet(r.cache.entries) <= KeySet(c.entries) + {key}
    ensures !c.onEvicted ==> r.evicted == []
  {
    var inserted := Insert(c.valueLen, c.entries, key, value);
    EvictKeeps(c.valueLen, c.maxBytes, inserted);
    Evict(c.(entries := inserted))
  }

  /** What eviction keeps: the newest entry, distinct keys, no new key,
      and the bound. */
  lemma EvictKeeps<V>(valueLen: V -> nat, maxBytes: int, es: seq<Entry<V>>)
    requires |es| > 0
    ensures var r := es[Gone(valueLen, maxBytes, es)..];
      && |r| > 0 && r[|r| - 1] == es[|es| - 1]
      && (DistinctKeys(es) ==> DistinctKeys(r))
      && KeySet(r) <= KeySet(es)
      && (maxBytes <= 0 || |r| <= 1 || Size(valueLen, r) <= maxBytes)
  {
    var k := Gone(valueLen, maxBytes, es);
    GoneFits(valueLen, maxBytes, es);
    SuffixDistinct(es, k);
    SuffixKeys(es, k);
  }

  /** The entries `Add` drops are the least recently used ones after the
      insert, and the callback receives them in that order. */
  lemma AddEvictsOldest<V>(c: Cache<V>, key: string, value: V)
    ensures var inserted := Insert(c.valueLen, c.entries, key, value);
      var r := Add(c, key, value);
      var gone := |inserted| - |r.cache.entries|;
      && 0 <= gone
      && r.cache.entries == inserted[gone..]
      && r.evicted == (if c.onEvicted then inserted[..gone] else [])
  {
  }

  /** `Add` drops only as many entries as the bound requires: with one
      entry fewer dropped the total would still exceed the capacity. */
  lemma AddEvictsNoMore<V>(c: Cache<V>, key: string, value: V)
    ensures var inserted := Insert(c.valueLen, c.entries, key, value);
      var gone := |inserted| - |Add(c, key, value).cache.entries|;
      gone > 0 ==> c.maxBytes > 0 && Size(c.valueLen, inserted[gone - 1..]) > c.maxBytes
  {
    var inserted := Insert(c.valueLen, c.entries, key, value);
    GoneMinimal(c.valueLen, c.maxBytes, inserted);
    var k := Gone(c.valueLen, c.maxBytes, inserted);
    var r := Evict(c.(entries := inserted));
    assert Add(c, key, value).cache.entries == r.cache.entries;
    assert |r.cache.entries| == |inserted| - k;
  }

  /** A value just added is found by the next `Get`, whatever was evicted
      to make room. */
  lemma AddThenGet<V>(c: Cache<V>, key: string, value: V)
    requires DistinctKeys(c.entries)
    ensures Get(Add(c, key, value).cache, key).value == Some(value)
  {
    var inserted := Insert(c.valueLen, c.entries, key, value);
    EvictKeeps(c.valueLen, c.maxBytes, inserted);
    var r := Add(c, key, value).cache;
    assert r.entries[|r.entries| - 1].key == key;
  }

  /** Adding each pair in turn, collecting what the eviction callback
      received over the whole run. */
  function AddAll<V>(c: Cache<V>, kvs: seq<Entry<V>>): (r: Added<V>)
    ensures r.cache.maxBytes == c.maxBytes && r.cache.valueLen == c.valueLen && r.cache.onEvicted == c.onEvicted
    ensures Valid(c) ==> Valid(r.cache)
    ensures !c.onEvicted ==> r.evicted == []
    decreases |kvs|
  {
    if |kvs| == 0 then Added(c, [])
    else
      var first := Add(c, kvs[0].key, kvs[0].value);
      var rest := AddAll(first.cache, kvs[1..]);
      Added(rest.cache, first.evicted + rest.evicted)
  }

  /** `Get` of a key that was never added misses. */
  lemma {:induction false} NeverAddedMisses<V>(c: Cache<V>, kvs: seq<Entry<V>>, key: string)
    requires key !in KeySet(c.entries)
    requires forall i :: 0 <= i < |kvs| ==> kvs[i].key != key
    ensures Get(AddAll(c, kvs).cache, key).value == None
    decreases |kvs|
  {
    if |kvs| > 0 {
      var first := Add(c, kvs[0].key, kvs[0].value);
      NeverAddedMisses(first.cache, kvs[1..], key);
    }
  }

  /** Adding a new key whose weight still fits appends it and evicts
      nothing. */
  lemma AddFits<V>(c: Cache<V>, key: string, value: V)
    requires key !in KeySet(c.entries)
    requires c.maxBytes <= 0 || Bytes(c) + Utf8Len(key) + c.valueLen(value) <= c.maxBytes
    ensures Add(c, key, value).cache.entries == c.entries + [Entry(key, value)]
    ensures Add(c, key, value).evicted == []
  {
    var inserted := Insert(c.valueLen, c.entries, key, value);
    assert Gone(c.valueLen, c.maxBytes, inserted) == 0;
    assert inserted[0..] == inserted;
  }

  /** Adding a new key that overflows the capacity by no more than the
      oldest entry's weight evicts exactly the oldest entry. */
  lemma AddEvictsOne<V>(c: Cache<V>, key: string, value: V)
    requires key !in KeySet(c.entries) && |c.entries| >= 1 && c.maxBytes > 0
    requires Bytes(c) + Utf8Len(key) + c.valueLen(value) > c.maxBytes
    requires Size(c.valueLen, c.entries[1..]) + Utf8Len(key) + c.valueLen(value) <= c.maxBytes
    ensures Add(c, key, value).cache.entries == c.entries[1..] + [Entry(key, value)]
    ensures Add(c, key, value).evicted == if c.onEvicted then [c.entries[0]] else []
  {
    var e := Entry(key, value);
    var inserted := Insert(c.valueLen, c.entries, key, value);
    assert inserted == c.entries + [e];
    assert inserted[1..] == c.entries[1..] + [e];
    SizeAppend(c.valueLen, c.entries[1..], [e]);
    SizeAppend(c.valueLen, c.entries, [e]);
    SizeOne(c.valueLen, e);
    assert Gone(c.valueLen, c.maxBytes, inserted[1..]) == 0;
    assert Gone(c.valueLen, c.maxBytes, inserted) == 1;
    assert inserted[..1] == [c.entries[0]];
  }

  /** Adding to an empty cache leaves exactly the new entry, whatever the
      capacity. */
  lemma FreshAdd<V>(c: Cache<V>, key: string, value: V)
    requires c.entries == []
    ensures Add(c, key, value).cache.entries == [Entry(key, value)]
    ensures Add(c, key, value).evicted == []
  {
    var e := Entry(key, value);
    assert KeySet(c.entries) == {};
    assert Insert(c.valueLen, c.entries, key, value) == [e];
    assert Gone(c.valueLen, c.maxBytes, [e]) == 0;
    assert [e][0..] == [e];
  }

  /** The first entry of an empty cache fits when its weight is within
      the capacity. */
  lemma FirstFits<V>(c: Cache<V>, e: Entry<V>)
    requires c.entries == []
    requires c.maxBytes <= 0 || EntrySize(c.valueLen, e) <= c.maxBytes
    ensures Add(c, e.key, e.value) == Added(c.(entries := [e]), [])
  {
    assert KeySet(c.entries) == {};
    assert c.entries + [e] == [e];
    AddFits(c, e.key, e.value);
  }

  /** A second entry joins the first when both fit together. */
  lemma SecondFits<V>(c: Cache<V>, e1: Entry<V>, e2: Entry<V>)
    requires c.entries == [e1] && e1.key != e2.key
    requires c.maxBytes <= 0 || EntrySize(c.valueLen, e1) + EntrySize(c.valueLen, e2) <= c.maxBytes
    ensures Add(c, e2.key, e2.value) == Added(c.(entries := [e1, e2]), [])
  {
    KeySetOne(e1);
    SizeOne(c.valueLen, e1);
    assert c.entries + [e2] == [e1, e2];
    AddFits(c, e2.key, e2.value);
  }

  /** A second entry that does not fit beside the first, but fits alone,
      replaces it. */
  lemma SecondEvictsFirst<V>(c: Cache<V>, e1: Entry<V>, e2: Entry<V>)
    requires c.entries == [e1] && e1.key != e2.key && c.maxBytes > 0
    requires EntrySize(c.valueLen, e1) + EntrySize(c.valueLen, e2) > c.maxBytes
    requires EntrySize(c.valueLen, e2) <= c.maxBytes
    ensures Add(c, e2.key, e2.value) == Added(c.(entries := [e2]), if c.onEvicted then [e1] else [])
  {
    KeySetOne(e1);
    SizeOne(c.valueLen, e1);
    assert c.entries[1..] + [e2] == [e2];
    AddEvictsOne(c, e2.key, e2.value);
  }

  /** A third entry that overflows two, but fits beside the second, evicts
      the first. */
  lemma ThirdEvictsFirst<V>(c: Cache<V>, e1: Entry<V>, e2: Entry<V>, e3: Entry<V>)
    requires c.entries == [e1, e2] && e3.key != e1.key && e3.key != e2.key && c.maxBytes > 0
    requires EntrySize(c.valueLen, e1) + EntrySize(c.valueLen, e2) + EntrySize(c.valueLen, e3) > c.maxBytes
    requires EntrySize(c.valueLen, e2) + EntrySize(c.valueLen, e3) <= c.maxBytes
    ensures Add(c, e3.key, e3.value) == Added(c.(entries := [e2, e3]), if c.onEvicted then [e1] else [])
  {
    assert KeySet(c.entries) == {e1.key, e2.key} by {
      assert c.entries[0] == e1 && c.entries[1] == e2;
    }
    assert c.entries[1..] == [e2];
    assert Size(c.valueLen, c.entries[1..]) == EntrySize(c.valueLen, e2);
    assert Bytes(c) == EntrySize(c.valueLen, e1) + EntrySize(c.valueLen, e2);
    assert c.entries[1..] + [e3] == [e2, e3];
    AddEvictsOne(c, e3.key, e3.value);
  }

  /** `Get` on a two-entry cache with distinct keys. */
  lemma GetOfPair<V>(c: Cache<V>, e1: Entry<V>, e2: Entry<V>, key: string)
    requires c.entries == [e1, e2] && e1.key != e2.key
    ensures Get(c, key).value ==
      if key == e1.key then Some(e1.value) else if key == e2.key then Some(e2.value) else None
  {
    assert KeySet(c.entries) == {e1.key, e2.key} by {
      assert c.entries[0] == e1 && c.entries[1] == e2;
    }
    assert DistinctKeys(c.entries);
    assert c.entries[0] == e1 && c.entries[1] == e2;
  }

  /** The scenario of the eviction test: with the capacity exactly the
      weight of the first two entries (`len(k1 + v1 + k2 + v2)`), adding a
      third entry no heavier than the first evicts exactly the first, leaving
      two entries; then, in turn, the first key misses and the other two
      hit. The test's "key1"/"val1" ... "key3"/"val3" (weight 8 each,
      capacity 16) meet these conditions. */
  lemma RemoveOldestScenario<V>(valueLen: V -> nat, e1: Entry<V>, e2: Entry<V>, e3: Entry<V>)
    requires e1.key != e2.key && e2.key != e3.key && e1.key != e3.key
    requires 0 < EntrySize(valueLen, e3) <= EntrySize(valueLen, e1)
    ensures var c0 := New(EntrySize(valueLen, e1) + EntrySize(valueLen, e2), valueLen, false);
      var c3 := Add(Add(Add(c0, e1.key, e1.value).cache, e2.key, e2.value).cache, e3.key, e3.value).cache;
      var g1 := Get(c3, e1.key);
      var g2 := Get(g1.cache, e2.key);
      var g3 := Get(g2.cache, e3.key);
      && Len(c3) == 2
      && g1.value == None
      && g2.value == Some(e2.value)
      && g3.value == Some(e3.value)
  {
    var c0 := New(EntrySize(valueLen, e1) + EntrySize(valueLen, e2), valueLen, false);
    var a1 := Add(c0, e1.key, e1.value);
    FirstFits(c0, e1);
    var a2 := Add(a1.cache, e2.key, e2.value);
    SecondFits(a1.cache, e1, e2);
    var a3 := Add(a2.cache, e3.key, e3.value);
    ThirdEvictsFirst(a2.cache, e1, e2, e3);
    var c3 := a3.cache;
    GetOfPair(c3, e2, e3, e1.key);
    GetOfPair(c3, e2, e3, e2.key);
    var g2 := Get(c3, e2.key);
    GetMovesPair(c3, e2, e3);
    GetOfPair(g2.cache, e3, e2, e3.key);
  }

  /** A hit on the older of two entries makes it the newer one. */
  lemma GetMovesPair<V>(c: Cache<V>, e1: Entry<V>, e2: Entry<V>)
    requires c.entries == [e1, e2] && e1.key != e2.key
    ensures Get(c, e1.key).cache.entries == [e2, e1]
  {
    assert Find(c.entries, e1.key) == Some(0);
    assert MoveToBack(c.entries, 0, e1) == [e2, e1];
  }

  /** The scenario of the callback test: with capacity 10, adding k1
      (weight 8), then k2, k3 and k4 (weight 4 each) evicts k1 when k2
      arrives and k2 when k4 arrives, so the callback sees exactly k1 then
      k2 (nothing at the other two steps) and k3, k4 remain. Stated for any entries whose weights fit the
      same pattern; the test's values meet it. */
  lemma OnEvictedScenario<V>(valueLen: V -> nat, cap: int, e1: Entry<V>, e2: Entry<V>, e3: Entry<V>, e4: Entry<V>)
    requires e1.key != e2.key && e2.key != e3.key && e3.key != e4.key && e2.key != e4.key
    requires var w1, w2, w3, w4 := EntrySize(valueLen, e1), EntrySize(valueLen, e2),
      EntrySize(valueLen, e3), EntrySize(valueLen, e4);
      && 0 < cap && w1 <= cap && w1 + w2 > cap && w2 + w3 <= cap && w2 + w3 + w4 > cap && w3 + w4 <= cap
    ensures var a1 := Add(New(cap, valueLen, true), e1.key, e1.value);
      var a2 := Add(a1.cache, e2.key, e2.value);
      var a3 := Add(a2.cache, e3.key, e3.value);
      var a4 := Add(a3.cache, e4.key, e4.value);
      && a1.evicted == [] && a2.evicted == [e1] && a3.evicted == [] && a4.evicted == [e2]
      && a4.cache.entries == [e3, e4]
  {
    var c0 := New(cap, valueLen, true);
    var a1 := Add(c0, e1.key, e1.value);
    FirstFits(c0, e1);
    var a2 := Add(a1.cache, e2.key, e2.value);
    SecondEvictsFirst(a1.cache, e1, e2);
    var a3 := Add(a2.cache, e3.key, e3.value);
    SecondFits(a2.cache, e2, e3);
    var a4 := Add(a3.cache, e4.key, e4.value);
    ThirdEvictsFirst(a3.cache, e2, e3, e4);
  }

  /** The tests' value type `Str`, whose `Len` is the byte length. */
  function StrLen(v: string): nat {
    Utf8Len(v)
  }

  /** `TestGet` with its own values: capacity 1000, no callback; "key1" is
      found with "1234" and "key2" is not. */
  lemma TestGet()
    ensures var c := Add(New(1000, StrLen, false), "key1", "1234").cache;
      && Get(c, "key1").value == Some("1234")
      && Get(c, "key2").value == None
  {
    var c0 := New(1000, StrLen, false);
    FreshAdd(c0, "key1", "1234");
    var c := Add(c0, "key1", "1234").cache;
    assert c.entries == [Entry("key1", "1234")];
    assert c.entries[0].key == "key1";
    assert "key2" != "key1";
    assert "key2" !in KeySet(c.entries);
  }

  /** `TestRemoveOldest` with its own keys and values: the capacity is
      `len("key1val1key2val2")`, sixteen bytes. */
  lemma TestRemoveOldest()
    ensures var e1, e2, e3 := Entry("key1", "val1"), Entry("key2", "val2"), Entry("key3", "val3");
      var c0 := New(Utf8Len("key1" + "val1" + "key2" + "val2"), StrLen, false);
      var c3 := Add(Add(Add(c0, e1.key, e1.value).cache, e2.key, e2.value).cache, e3.key, e3.value).cache;
      var g1 := Get(c3, e1.key);
      var g2 := Get(g1.cache, e2.key);
      var g3 := Get(g2.cache, e3.key);
      && Len(c3) == 2
      && g1.value == None
      && g2.value == Some(e2.value)
      && g3.value == Some(e3.value)
  {
    var e1, e2, e3 := Entry("key1", "val1"), Entry("key2", "val2"), Entry("key3", "val3");
    RemoveOldestWeights();
    RemoveOldestScenario(StrLen, e1, e2, e3);
  }

  /** The weights in `TestRemoveOldest`: eight bytes per entry, sixteen for
      the first two together. */
  lemma RemoveOldestWeights()
    ensures EntrySize(StrLen, Entry("key1", "val1")) == 8
    ensures EntrySize(StrLen, Entry("key2", "val2")) == 8
    ensures EntrySize(StrLen, Entry("key3", "val3")) == 8
    ensures Utf8Len("key1" + "val1" + "key2" + "val2") == 16
  {
    FourAscii("key1");
    FourAscii("val1");
    FourAscii("key2");
    FourAscii("val2");
    FourAscii("key3");
    FourAscii("val3");
    Utf8LenAppend("key1" + "val1" + "key2", "val2");
    Utf8LenAppend("key1" + "val1", "key2");
    Utf8LenAppend("key1", "val1");
  }

  /** `TestOnEvicted` with its own keys and values: with capacity 10 the
      callback receives k1 and then k2, and nothing else, over the four
      adds. */
  lemma TestOnEvicted()
    ensures var e1, e2, e3, e4 := Entry("k1", "123456"), Entry("k2", "k2"), Entry("k3", "k3"), Entry("k4", "k4");
      var a1 := Add(New(10, StrLen, true), e1.key, e1.value);
      var a2 := Add(a1.cache, e2.key, e2.value);
      var a3 := Add(a2.cache, e3.key, e3.value);
      var a4 := Add(a3.cache, e4.key, e4.value);
      a1.evicted + a2.evicted + a3.evicted + a4.evicted == [e1, e2]
  {
    var e1, e2, e3, e4 := Entry("k1", "123456"), Entry("k2", "k2"), Entry("k3", "k3"), Entry("k4", "k4");
    OnEvictedWeights();
    OnEvictedScenario(StrLen, 10, e1, e2, e3, e4);
    var a1 := Add(New(10, StrLen, true), e1.key, e1.value);
    var a2 := Add(a1.cache, e2.key, e2.value);
    var a3 := Add(a2.cache, e3.key, e3.value);
    var a4 := Add(a3.cache, e4.key, e4.value);
    assert a1.evicted == [] && a2.evicted == [e1] && a3.evicted == [] && a4.evicted == [e2];
  }

  /** The weights in `TestOnEvicted`: eight bytes for k1, four for the
      others. */
  lemma OnEvictedWeights()
    ensures EntrySize(StrLen, Entry("k1", "123456")) == 8
    ensures EntrySize(StrLen, Entry("k2", "k2")) == 4
    ensures EntrySize(StrLen, Entry("k3", "k3")) == 4
    ensures EntrySize(StrLen, Entry("k4", "k4")) == 4
  {
    TwoAscii("k1");
    TwoAscii("k2");
    TwoAscii("k3");
    TwoAscii("k4");
    assert "123456" == "1234" + "56";
    Utf8LenAppend("1234", "56");
    FourAscii("1234");
    TwoAscii("56");
  }

  lemma FourAscii(s: string)
    requires |s| == 4 && s[0] as int < 0x80 && s[1] as int < 0x80 && s[2] as int < 0x80 && s[3] as int < 0x80
    ensures Utf8Len(s) == 4
  {
    Utf8LenAscii(s);
  }

  lemma TwoAscii(s: string)
    requires |s| == 2 && s[0] as int < 0x80 && s[1] as int < 0x80
    ensures Utf8Len(s) == 2
  {
    Utf8LenAscii(s);
  }
}

=== FILE: singleflight.dfy ===
/** Duplicate-call suppression (geecache/singleflight/singleflight.go).

    The group maps each key with a call in flight to that call's record.
    Records live in a heap addressed by position, as the Go code shares
    `*call` pointers between the creator and the callers that join it.
    Concurrency is modelled by explicit steps of a set of callers, each one
    `Do` invocation: entering (begin or join under the lock), the creator's
    `fn` returning (the record is filled and the wait group released), the
    creator deleting the key and returning, and a joiner waking up. Each
    step is atomic; nothing is claimed about progress. */
module SingleFlight {
  import opened Wrappers

  /** What `fn` returns: a result and an error, passed on unchanged. */
  datatype Outcome<R> = Outcome(res: R, err: Option<Error>)

  datatype Phase<R> = Pending | Done(out: Outcome<R>)

  /** A `call` record: the key it was created for, the caller that created
      it, and whether `fn` has returned. */
  datatype Call<R> = Call(key: string, owner: nat, phase: Phase<R>)

  /** `Group`: the map (nil until first use) from key to record. */
  datatype Group<R> = Group(m: Option<map<string, nat>>, calls: seq<Call<R>>)

  /** The empty group `&singleflight.Group{}`. */
  function NewGroup<R>(): (g: Group<R>)
    ensures Calls(g) == map[] && g.calls == [] && GroupValid(g)
  {
    Group(None, [])
  }

  /** The keys in flight, a nil map reading as empty. */
  function Calls<R>(g: Group<R>): map<string, nat> {
    if g.m.None? then map[] else g.m.value
  }

  /** Every key in flight points at a record created for that key. */
  ghost predicate GroupValid<R>(g: Group<R>) {
    forall k :: k in Calls(g) ==> Calls(g)[k] < |g.calls| && g.calls[Calls(g)[k]].key == k
  }

  /** The begin step under the lock: make the map if it is nil, allocate a
      fresh record for `key` owned by `owner` and register it. */
  function Begin<R>(g: Group<R>, key: string, owner: nat): (r: (Group<R>, nat))
    ensures r.0.m.Some? && r.1 == |g.calls| && |r.0.calls| == |g.calls| + 1
    ensures r.0.calls[r.1] == Call(key, owner, Pending)
    ensures forall id :: 0 <= id < |g.calls| ==> r.0.calls[id] == g.calls[id]
    ensures key in Calls(r.0) && Calls(r.0)[key] == r.1
    ensures forall k :: k != key ==> (k in Calls(r.0) <==> k in Calls(g))
    ensures forall k :: k != key && k in Calls(g) ==> Calls(r.0)[k] == Calls(g)[k]
  {
    var id := |g.calls|;
    (Group(Some(Calls(g)[key := id]), g.calls + [Call(key, owner, Pending)]), id)
  }

  /** `fn` returned: its result and error are stored in the record. */
  function Resolve<R>(g: Group<R>, id: nat, out: Outcome<R>): (r: Group<R>)
    requires id < |g.calls|
    ensures r.m == g.m && |r.calls| == |g.calls|
    ensures r.calls[id] == g.calls[id].(phase := Done(out))
    ensures forall j :: 0 <= j < |g.calls| && j != id ==> r.calls[j] == g.calls[j]
  {
    g.(calls := g.calls[id := g.calls[id].(phase := Done(out))])
  }

  /** `delete(g.m, key)` under the lock. */
  function Delete<R>(g: Group<R>, key: string): (r: Group<R>)
    ensures r.calls == g.calls && r.m.Some? == g.m.Some?
    ensures key !in Calls(r)
    ensures forall k :: k != key ==> (k in Calls(r) <==> k in Calls(g))
    ensures forall k :: k != key && k in Calls(g) ==> Calls(r)[k] == Calls(g)[k]
  {
    if g.m.None? then g else g.(m := Some(g.m.value - {key}))
  }

  /** `Do` with no other caller in flight for `key`: begin, run `fn`
      (whose outcome is `out`), resolve, delete. The caller gets `fn`'s
      exact outcome and the group is left with the same keys in flight as
      before, its map now made. */
  function Do<R>(g: Group<R>, key: string, out: Outcome<R>): (r: (Group<R>, Outcome<R>))
    requires key !in Calls(g)
    ensures r.1 == out
    ensures r.0.m.Some? && Calls(r.0) == Calls(g)
    ensures GroupValid(g) ==> GroupValid(r.0)
  {
    var (begun, id) := Begin(g, key, 0);
    var done := Resolve(begun, id, out);
    var r := Delete(done, key);
    assert Calls(r) == Calls(g);
    (r, done.calls[id].phase.out)
  }

  /** A second call after the first has completed runs its own `fn`: the
      record of the first is gone, so the second begins afresh. */
  lemma DoTwice<R>(g: Group<R>, key: string, first: Outcome<R>, second: Outcome<R>)
    requires key !in Calls(g)
    ensures var (g1, o1) := Do(g, key, first);
      key !in Calls(g1) && o1 == first && Do(g1, key, second).1 == second
  {
  }

  /** Where a caller is in `Do`: not yet entered; blocked on the record it
      joined; running `fn` for the record it created; past `fn` but
      before the delete; or returned with an outcome read from a record. */
  datatype Pc<R> = Idle | Waiting(id: nat) | Running(id: nat) | Resolved(id: nat) | Returned(id: nat, out: Outcome<R>)

  /** A caller: its key and what its `fn` would return if it ran. */
  datatype Caller<R> = Caller(key: string, fn: Outcome<R>, pc: Pc<R>)

  datatype State<R> = State(group: Group<R>, callers: seq<Caller<R>>)

  predicate IsCreator<R>(pc: Pc<R>) {
    pc.Running? || pc.Resolved?
  }

  /** The state invariant. Records point at real callers with their key;
      a filled record holds its creator's `fn` outcome; a creator still in
      `Do` owns the record its key maps to; a pending record's creator is
      still running; joiners wait on records of their key; and every
      caller that returned holds the outcome of its record's creator. */
  ghost predicate Inv<R>(s: State<R>) {
    var g := s.group;
    && GroupValid(g)
    && (forall id :: 0 <= id < |g.calls| ==>
          && g.calls[id].owner < |s.callers|
          && s.callers[g.calls[id].owner].key == g.calls[id].key
          && (g.calls[id].phase.Done? ==> g.calls[id].phase.out == s.callers[g.calls[id].owner].fn)
          && (g.calls[id].phase.Pending? ==> s.callers[g.calls[id].owner].pc == Running(id))
          && (g.calls[id].phase.Done? ==> s.callers[g.calls[id].owner].pc in {Resolved(id), Returned(id, g.calls[id].phase.out)}))
    && (forall i :: 0 <= i < |s.callers| && IsCreator(s.callers[i].pc) ==>
          && s.callers[i].pc.id < |g.calls|
          && g.calls[s.callers[i].pc.id].owner == i
          && s.callers[i].key in Calls(g)
          && Calls(g)[s.callers[i].key] == s.callers[i].pc.id
          && (s.callers[i].pc.Resolved? ==> g.calls[s.callers[i].pc.id].phase.Done?))
    && (forall i :: 0 <= i < |s.callers| && s.callers[i].pc.Waiting? ==>
          s.callers[i].pc.id < |g.calls| && g.calls[s.callers[i].pc.id].key == s.callers[i].key)
    && (forall i :: 0 <= i < |s.callers| && s.callers[i].pc.Returned? ==>
          && s.callers[i].pc.id < |g.calls|
          && g.calls[s.callers[i].pc.id].key == s.callers[i].key
          && g.calls[s.callers[i].pc.id].phase.Done?
          && s.callers[i].pc.out == s.callers[g.calls[s.callers[i].pc.id].owner].fn)
  }

  /** Callers that have not entered `Do` yet, and an empty group. */
  function Init<R>(callers: seq<Caller<R>>): (s: State<R>)
    requires forall i :: 0 <= i < |callers| ==> callers[i].pc == Idle
    ensures Inv(s)
  {
    State(NewGroup(), callers)
  }

  /** The same callers with caller `i` moved to `pc`. */
  function Move<R>(callers: seq<Caller<R>>, i: nat, pc: Pc<R>): (r: seq<Caller<R>>)
    requires i < |callers|
    ensures |r| == |callers| && r[i] == callers[i].(pc := pc)
    ensures forall j :: 0 <= j < |callers| && j != i ==> r[j] == callers[j]
  {
    callers[i := callers[i].(pc := pc)]
  }

  /** Caller `i` enters `Do` and takes the lock. If its key has a record it
      joins that record and will wait; otherwise it creates and registers a
      fresh record and goes on to run its `fn`. Only the entry for its key
      can change. */
  function Enter<R>(s: State<R>, i: nat): (r: State<R>)
    requires Inv(s) && i < |s.callers| && s.callers[i].pc.Idle?
    ensures Inv(r) && r.group.m.Some?
    ensures |r.callers| == |s.callers|
    ensures forall j :: 0 <= j < |s.callers| ==> r.callers[j].key == s.callers[j].key && r.callers[j].fn == s.callers[j].fn
    ensures var key := s.callers[i].key;
      if key in Calls(s.group) then
        r.callers[i].pc == Waiting(Calls(s.group)[key]) && Calls(r.group) == Calls(s.group)
      else
        r.callers[i].pc.Running? && Calls(r.group) == Calls(s.group)[key := r.callers[i].pc.id]
  {
    var key := s.callers[i].key;
    if key in Calls(s.group) then Join(s, i) else Create(s, i)
  }

  /** The join half of `Enter`. */
  function Join<R>(s: State<R>, i: nat): (r: State<R>)
    requires Inv(s) && i < |s.callers| && s.callers[i].pc.Idle? && s.callers[i].key in Calls(s.group)
    ensures Inv(r) && r.group.m.Some? && Calls(r.group) == Calls(s.group)
    ensures r.callers == Move(s.callers, i, Waiting(Calls(s.group)[s.callers[i].key]))
  {
    var g := s.group.(m := Some(Calls(s.group)));
    State(g, Move(s.callers, i, Waiting(Calls(g)[s.callers[i].key])))
  }

  /** The create half of `Enter`. */
  function Create<R>(s: State<R>, i: nat): (r: State<R>)
    requires Inv(s) && i < |s.callers| && s.callers[i].pc.Idle? && s.callers[i].key !in Calls(s.group)
    ensures Inv(r) && r.group.m.Some?
    ensures r.callers == Move(s.callers, i, Running(|s.group.calls|))
    ensures Calls(r.group) == Calls(s.group)[s.callers[i].key := |s.group.calls|]
  {
    var key := s.callers[i].key;
    var (begun, id) := Begin(s.group, key, i);
    assert Calls(begun) == Calls(s.group)[key := id];
    State(begun, Move(s.callers, i, Running(id)))
  }

  /** The creator's `fn` returns: its outcome is stored in the record and
      the joiners are released. No key changes. */
  function Return<R>(s: State<R>, i: nat): (r: State<R>)
    requires Inv(s) && i < |s.callers| && s.callers[i].pc.Running?
    ensures Inv(r) && Calls(r.group) == Calls(s.group)
    ensures |r.callers| == |s.callers|
    ensures forall j :: 0 <= j < |s.callers| ==> r.callers[j].key == s.callers[j].key && r.callers[j].fn == s.callers[j].fn
    ensures r.callers[i].pc == Resolved(s.callers[i].pc.id)
  {
    var id := s.callers[i].pc.id;
    State(Resolve(s.group, id, s.callers[i].fn), Move(s.callers, i, Resolved(id)))
  }

  /** The creator deletes its key and returns what its record holds, which
      is exactly its own `fn` outcome. Only its key's entry is removed. */
  function Finish<R>(s: State<R>, i: nat): (r: State<R>)
    requires Inv(s) && i < |s.callers| && s.callers[i].pc.Resolved?
    ensures Inv(r)
    ensures |r.callers| == |s.callers|
    ensures forall j :: 0 <= j < |s.callers| ==> r.callers[j].key == s.callers[j].key && r.callers[j].fn == s.callers[j].fn
    ensures r.callers[i].pc.Returned? && r.callers[i].pc.out == s.callers[i].fn
    ensures Calls(r.group) == Calls(s.group) - {s.callers[i].key}
  {
    var id := s.callers[i].pc.id;
    var out := s.group.calls[id].phase.out;
    var g := Delete(s.group, s.callers[i].key);
    assert Calls(g) == Calls(s.group) - {s.callers[i].key};
    State(g, Move(s.callers, i, Returned(id, out)))
  }

  /** A joiner whose record is filled wakes and returns the record's
      outcome, which is its creator's `fn` outcome; the group is untouched. */
  function Wake<R>(s: State<R>, i: nat): (r: State<R>)
    requires Inv(s) && i < |s.callers| && s.callers[i].pc.Waiting?
    requires s.group.calls[s.callers[i].pc.id].phase.Done?
    ensures Inv(r) && r.group == s.group
    ensures |r.callers| == |s.callers|
    ensures forall j :: 0 <= j < |s.callers| ==> r.callers[j].key == s.callers[j].key && r.callers[j].fn == s.callers[j].fn
    ensures var id := s.callers[i].pc.id;
      r.callers[i].pc == Returned(id, s.callers[s.group.calls[id].owner].fn)
  {
    var id := s.callers[i].pc.id;
    State(s.group, Move(s.callers, i, Returned(id, s.group.calls[id].phase.out)))
  }

  /** Once a creator has deleted its key, a caller of the same key that
      enters afterwards does not join the finished record: it creates a new
      one, runs its own `fn` and returns that outcome. */
  lemma EnterAfterFinish<R>(s: State<R>, i: nat, j: nat)
    requires Inv(s) && i < |s.callers| && j < |s.callers|
    requires s.callers[i].pc.Resolved? && s.callers[j].pc.Idle? && s.callers[j].key == s.callers[i].key
    ensures var s1 := Enter(Finish(s, i), j);
      && s1.callers[j].pc.Running?
      && Finish(Return(s1, j), j).callers[j].pc.out == s.callers[j].fn
  {
  }

  /** One step of one caller. */
  datatype Step = EnterStep(i: nat) | ReturnStep(i: nat) | FinishStep(i: nat) | WakeStep(i: nat)

  /** Whether the caller named by `step` can take it now: a joiner can only
      wake once its record is filled. */
  predicate Enabled<R>(s: State<R>, step: Step)
    requires Inv(s)
  {
    && step.i < |s.callers|
    && match step
       case EnterStep(i) => s.callers[i].pc.Idle?
       case ReturnStep(i) => s.callers[i].pc.Running?
       case FinishStep(i) => s.callers[i].pc.Resolved?
       case WakeStep(i) =>
         s.callers[i].pc.Waiting? && s.group.calls[s.callers[i].pc.id].phase.Done?
  }

  /** Take `step` when it is enabled; otherwise that caller is not
      scheduled and nothing happens. */
  function Apply<R>(s: State<R>, step: Step): (r: State<R>)
    requires Inv(s)
    ensures Inv(r) && |r.callers| == |s.callers|
    ensures forall j :: 0 <= j < |s.callers| ==> r.callers[j].key == s.callers[j].key && r.callers[j].fn == s.callers[j].fn
  {
    if !Enabled(s, step) then s
    else
      match step
      case EnterStep(i) => Enter(s, i)
      case ReturnStep(i) => Return(s, i)
      case FinishStep(i) => Finish(s, i)
      case WakeStep(i) => Wake(s, i)
  }

  /** Any interleaving of steps. */
  function Execute<R>(s: State<R>, steps: seq<Step>): (r: State<R>)
    requires Inv(s)
    ensures Inv(r) && |r.callers| == |s.callers|
    ensures forall j :: 0 <= j < |s.callers| ==> r.callers[j].key == s.callers[j].key && r.callers[j].fn == s.callers[j].fn
    decreases |steps|
  {
    if |steps| == 0 then s else Execute(Apply(s, steps[0]), steps[1..])
  }

  /** No two callers are creators in flight for the same key at once. */
  predicate OneCreatorPerKey<R>(callers: seq<Caller<R>>) {
    forall i, j :: 0 <= i < j < |callers| && IsCreator(callers[i].pc) && IsCreator(callers[j].pc) ==> callers[i].key != callers[j].key
  }

  /** What the invariant guarantees: every caller that has returned got the
      exact outcome of the `fn` of a caller with the same key that created
      the record and has run its `fn` (a creator that returned got its own);
      and no two callers are creators in flight for the same key at once. */
  lemma InvSafety<R>(s: State<R>)
    requires Inv(s)
    ensures forall i :: 0 <= i < |s.callers| && s.callers[i].pc.Returned? ==>
      var j := s.group.calls[s.callers[i].pc.id].owner;
      && j < |s.callers| && s.callers[j].key == s.callers[i].key
      && s.callers[i].pc.out == s.callers[j].fn
      && (s.callers[j].pc.Resolved? || s.callers[j].pc.Returned?)
    ensures OneCreatorPerKey(s.callers)
  {
  }

  /** Safety of every run: from callers that have not entered yet, under any
      schedule, every caller that returned holds the `fn` outcome of the
      creator of the record it read, a caller of the same key, and at most
      one creator per key is ever in flight. */
  lemma Safe<R>(callers: seq<Caller<R>>, steps: seq<Step>)
    requires forall i :: 0 <= i < |callers| ==> callers[i].pc == Idle
    ensures var s := Execute(Init(callers), steps);
      && (forall i :: 0 <= i < |callers| && s.callers[i].pc.Returned? ==>
            var j := s.group.calls[s.callers[i].pc.id].owner;
            && j < |callers| && callers[j].key == callers[i].key
            && s.callers[i].pc.out == callers[j].fn)
      && OneCreatorPerKey(s.callers)
  {
    var s := Execute(Init(callers), steps);
    InvSafety(s);
  }
}

=== FILE: sorting.dfy ===
/** Ascending order on integer sequences, and a sort to stand for Go's
    `slices.Sort`. */
module Sorting {

  predicate Sorted(s: seq<int>) {
    forall i, j :: 0 <= i < j < |s| ==> s[i] <= s[j]
  }

  /** Inserts `x` into the sorted sequence `s` before the first element not
      smaller than it. */
  function Insert(x: int, s: seq<int>): (r: seq<int>)
    requires Sorted(s)
    ensures Sorted(r)
    ensures multiset(r) == multiset(s) + multiset{x}
    ensures |r| == |s| + 1
  {
    if |s| == 0 || x <= s[0] then
      [x] + s
    else
      var tail := Insert(x, s[1..]);
      assert s == [s[0]] + s[1..];
      forall k | 0 <= k < |tail|
        ensures s[0] <= tail[k]
      {
        assert tail[k] in multiset(tail);
      }
      [s[0]] + tail
  }

  /** Insertion sort: a sorted permutation of `s`. */
  function Sort(s: seq<int>): (r: seq<int>)
    ensures Sorted(r)
    ensures multiset(r) == multiset(s)
    ensures |r| == |s|
  {
    if |s| == 0 then []
    else
      assert s == s[..|s| - 1] + [s[|s| - 1]];
      Insert(s[|s| - 1], Sort(s[..|s| - 1]))
  }

  lemma SortedHeadIsLeast(s: seq<int>, x: int)
    requires Sorted(s) && x in multiset(s)
    ensures |s| > 0 && s[0] <= x
  {
    assert x in s;
  }

  /** A sorted permutation is unique, so any correct sort (in particular
      `slices.Sort`) yields exactly `Sort`'s result. */
  lemma {:induction false} SortedUnique(a: seq<int>, b: seq<int>)
    requires Sorted(a) && Sorted(b)
    requires multiset(a) == multiset(b)
    ensures a == b
    decreases |a|
  {
    if |a| == 0 {
      assert |b| == |multiset(b)| == 0;
    } else {
      assert a[0] in multiset(a);
      SortedHeadIsLeast(b, a[0]);
      assert b[0] in multiset(b);
      SortedHeadIsLeast(a, b[0]);
      assert a == [a[0]] + a[1..];
      assert b == [b[0]] + b[1..];
      assert multiset(a) == multiset{a[0]} + multiset(a[1..]);
      assert multiset(b) == multiset{b[0]} + multiset(b[1..]);
      assert a[0] == b[0];
      assert multiset(a[1..]) == multiset(a) - multiset{a[0]};
      assert multiset(b[1..]) == multiset(b) - multiset{b[0]};
      SortedUnique(a[1..], b[1..]);
    }
  }
}

=== FILE: strings.dfy ===
/** The pieces of Go's `strings` and `strconv` packages that the cache uses:
    prefix tests, `Split` on a one-character separator, `Itoa` on
    non-negative integers, and `len` of a string, which counts the bytes of
    its UTF-8 encoding. */
module Strings {

  /** `strings.HasPrefix`. */
  predicate HasPrefix(s: string, prefix: string): (b: bool)
    ensures b <==> |prefix| <= |s| && s == prefix + s[|prefix|..]
  {
    assert |prefix| <= |s| ==> s == s[..|prefix|] + s[|prefix|..];
    |prefix| <= |s| && s[..|prefix|] == prefix
  }

  /** A string extended by anything starts with it, and trimming it gives
      the extension back. */
  lemma PrefixOfConcat(prefix: string, t: string)
    ensures HasPrefix(prefix + t, prefix) && TrimPrefix(prefix + t, prefix) == t
  {
    assert (prefix + t)[..|prefix|] == prefix;
  }

  /** `strings.TrimPrefix`: drops `prefix` when present, else returns `s`. */
  function TrimPrefix(s: string, prefix: string): (r: string)
    ensures HasPrefix(s, prefix) ==> prefix + r == s
    ensures !HasPrefix(s, prefix) ==> r == s
  {
    if HasPrefix(s, prefix) then
      assert s == s[..|prefix|] + s[|prefix|..];
      s[|prefix|..]
    else s
  }

  /** The number of bytes UTF-8 uses for `c`. */
  function CharLen(c: char): (n: nat)
    ensures 1 <= n <= 4
    ensures n == 1 <==> c as int < 0x80
  {
    if c as int < 0x80 then 1
    else if c as int < 0x800 then 2
    else if c as int < 0x1_0000 then 3
    else 4
  }

  /** Go's `len(s)`: the length of the UTF-8 encoding of `s`. */
  function Utf8Len(s: string): (n: nat)
    ensures |s| <= n <= 4 * |s|
  {
    if |s| == 0 then 0 else CharLen(s[0]) + Utf8Len(s[1..])
  }

  lemma {:induction false} Utf8LenAppend(a: string, b: string)
    ensures Utf8Len(a + b) == Utf8Len(a) + Utf8Len(b)
    decreases |a|
  {
    if |a| == 0 {
      assert a + b == b;
    } else {
      assert (a + b)[1..] == a[1..] + b;
      Utf8LenAppend(a[1..], b);
    }
  }

  /** Byte length and character count agree exactly on ASCII text. */
  lemma {:induction false} Utf8LenAscii(s: string)
    ensures Utf8Len(s) == |s| <==> forall i :: 0 <= i < |s| ==> s[i] as int < 0x80
    decreases |s|
  {
    if |s| > 0 {
      Utf8LenAscii(s[1..]);
      assert forall i :: 1 <= i < |s| ==> s[i] == s[1..][i - 1];
    }
  }

  /** Number of occurrences of `c` in `s`. */
  function Count(s: string, c: char): nat {
    if |s| == 0 then 0 else (if s[0] == c then 1 else 0) + Count(s[1..], c)
  }

  /** Index of the first occurrence of `c` in `s`, if any. */
  function FirstIndex(s: string, c: char): (r: nat)
    ensures r <= |s|
    ensures forall j :: 0 <= j < r ==> s[j] != c
    ensures r < |s| ==> s[r] == c
  {
    if |s| == 0 || s[0] == c then 0 else 1 + FirstIndex(s[1..], c)
  }

  /** `strings.Join` with a one-character separator. */
  function Join(parts: seq<string>, sep: char): string {
    if |parts| == 0 then ""
    else if |parts| == 1 then parts[0]
    else parts[0] + [sep] + Join(parts[1..], sep)
  }

  lemma {:induction false} CountAppend(a: string, b: string, c: char)
    ensures Count(a + b, c) == Count(a, c) + Count(b, c)
  {
    if |a| == 0 {
      assert a + b == b;
    } else {
      assert (a + b)[1..] == a[1..] + b;
      CountAppend(a[1..], b, c);
    }
  }

  lemma {:induction false} CountAbsent(s: string, c: char)
    requires forall j :: 0 <= j < |s| ==> s[j] != c
    ensures Count(s, c) == 0
  {
    if |s| > 0 {
      CountAbsent(s[1..], c);
    }
  }

  /** A string holding `c` counts it at least once. */
  lemma {:induction false} CountPresent(s: string, c: char, j: int)
    requires 0 <= j < |s| && s[j] == c
    ensures Count(s, c) >= 1
  {
    if j > 0 {
      CountPresent(s[1..], c, j - 1);
    }
  }

  /** `strings.Split(s, string(sep))`: the pieces of `s` between the
      separators. It never returns an empty list, no piece contains the
      separator, joining the pieces gives `s` back, and there is one piece more
      than there are separators. */
  function Split(s: string, sep: char): (parts: seq<string>)
    ensures |parts| >= 1
    ensures forall i, j :: 0 <= i < |parts| && 0 <= j < |parts[i]| ==> parts[i][j] != sep
    ensures Join(parts, sep) == s
    ensures |parts| == Count(s, sep) + 1
    decreases |s|
  {
    var i := FirstIndex(s, sep);
    if i == |s| then
      CountAbsent(s, sep);
      [s]
    else
      var rest := Split(s[i + 1..], sep);
      assert s == s[..i] + [sep] + s[i + 1..];
      CountAppend(s[..i] + [sep], s[i + 1..], sep);
      CountAppend(s[..i], [sep], sep);
      CountAbsent(s[..i], sep);
      [s[..i]] + rest
  }

  /** The other half of the round trip: splitting a join of separator-free
      pieces gives the pieces back. */
  lemma {:induction false} SplitJoin(parts: seq<string>, sep: char)
    requires |parts| >= 1
    requires forall i, j :: 0 <= i < |parts| && 0 <= j < |parts[i]| ==> parts[i][j] != sep
    ensures Split(Join(parts, sep), sep) == parts
    decreases |parts|
  {
    var s := Join(parts, sep);
    if |parts| == 1 {
      assert FirstIndex(s, sep) == |s|;
    } else {
      var rest := Join(parts[1..], sep);
      assert s == parts[0] + [sep] + rest;
      assert s[|parts[0]|] == sep;
      assert FirstIndex(s, sep) == |parts[0]|;
      assert s[|parts[0]| + 1..] == rest;
      assert s[..|parts[0]|] == parts[0];
      SplitJoin(parts[1..], sep);
    }
  }

  /** The decimal digit for `d`. */
  function Digit(d: nat): (c: char)
    requires d < 10
    ensures '0' <= c <= '9'
  {
    "0123456789"[d]
  }

  predicate IsDigits(s: string) {
    forall i :: 0 <= i < |s| ==> '0' <= s[i] <= '9'
  }

  /** `strconv.Itoa` for the non-negative integers the ring uses: the decimal
      digits of `n` with no leading zero. */
  function Itoa(n: nat): (s: string)
    ensures |s| >= 1 && IsDigits(s)
    ensures s[0] == '0' ==> n == 0
  {
    if n < 10 then [Digit(n)] else Itoa(n / 10) + [Digit(n % 10)]
  }

  /** The value of a string of decimal digits (the inverse of `Itoa`). */
  function Atoi(s: string): nat
    requires IsDigits(s)
  {
    if |s| == 0 then 0
    else 10 * Atoi(s[..|s| - 1]) + (s[|s| - 1] as int - '0' as int)
  }

  lemma DigitValue(d: nat)
    requires d < 10
    ensures Digit(d) as int - '0' as int == d
  {
  }

  /** Reading back the decimal text of `n` gives `n`; hence `Itoa` is
      injective. */
  lemma {:induction false} AtoiItoa(n: nat)
    ensures Atoi(Itoa(n)) == n
    decreases n
  {
    DigitValue(n % 10);
    if n >= 10 {
      var s, q, d := Itoa(n), n / 10, n % 10;
      assert s == Itoa(q) + [Digit(d)];
      assert s[..|s| - 1] == Itoa(q);
      AtoiItoa(q);
      assert Atoi(s) == 10 * q + d;
    }
  }

  lemma ItoaInjective(a: nat, b: nat)
    requires Itoa(a) == Itoa(b)
    ensures a == b
  {
    AtoiItoa(a);
    AtoiItoa(b);
  }
}

=== FILE: wrappers.dfy ===
/** Failure-carrying values shared by every module of the model. */
module Wrappers {

  /** A value that may be absent; stands for Go's nil pointers, nil maps and
      the `(value, ok)` idiom. */
  datatype Option<+T> = None | Some(value: T)

  /** Either a value or an error, for Go functions returning `(T, error)`. */
  datatype Result<+T, +E> = Ok(value: T) | Err(error: E)

  /** A Go `error` value, identified by its message. */
  datatype Error = Error(msg: string)
}
